=== FILE: README.md ===
# LRU cache: a model in Dafny

`cache/lru.py` implements a least-recently-used cache with a fixed capacity. It keeps
a dictionary from keys to `CacheNode` objects and threads those nodes on a doubly linked
list, with `_head` the most recently used entry and `_tail` the least recently used one.
The public calls are `LRUCache(capacity)`, `get`, `put`, `delete` and `reset`. They are
built from the list operations `_push`, `_pop` and `_unlink`.

The model has two layers and relates them.

- **`LruCache`** (`lru_cache.dfy`) is the cache as an abstract recency list: the
  behaviour the tests check, with a `put` of a cached key keeping its first value as the
  code does (see below). The recency list is a sequence of keys, most recent first, and the entries
  are a map. Every operation is a pure function that keeps the invariant `Valid`: keys are
  distinct, the list and the map hold the same keys, and the size is at most the capacity.
  `LruProperties` (`lru_properties.dfy`) proves the properties the tests check, over all
  capacities and keys.
- **`LinkedLru`** (`linked_lru.dfy`) transcribes the implementation statement by
  statement. Nodes live in an arena, and a node reference is an `Option<nat>` index into
  it. A statement that would raise in Python returns `Err` with the exception's class
  (`ValueError`, `KeyError`, `AttributeError`).
- **`ListChain`** (`chain.dfy`) reads the linked list as the sequence of node indices from
  head to tail. It proves what `_push`, `_pop` and `_unlink` do to that sequence while the
  list is intact.
- **`Refinement`** (`refinement.dfy`) defines `Repr(c, a, ids)`: the linked cache `c`, with
  list `ids`, stands for the abstract cache `a`. It proves that each operation keeps `Repr`.
- **`Traces`** (`traces.dfy`) runs whole sequences of calls on both layers. The code as
  written agrees with the abstract cache on every sequence of list-safe calls, the calls
  that leave its list intact (`Traces.ListSafe`):
  - puts of keys the cache does not hold;
  - gets that miss;
  - deletes;
  - resets.

  A get of a cached key is not list-safe, and the tests make such gets
  (tests/lru_cache_tests.py:27-28 and 61). A run of gets, from a state whose dictionary holds
  the abstract entries, answers every key as the abstract cache does
  (`Traces.GetsAsWritten`). After a hit, later puts can make the code as written miss keys
  the abstract cache holds (`Divergences.TouchedKeyEvicted`, `Divergences.PutEvictsOwnKey`).
  The runs of those two tests are proved as written
  (`Traces.FillThenGetAsWritten`, `Traces.GetThenDeleteAsWritten`). The corrected code
  (below) agrees with the abstract cache on every sequence of calls.
- **`Divergences`** (`divergences.dfy`) gives concrete runs where the code as written
  leaves its list broken or raises.

`_push` as written links a node in front of the head without first taking it out of the
list. A `get`, or a `put` of a key already present, can therefore corrupt the list: a hit
on the head does when two or more keys are cached, and a hit on any other entry does when
three or more are (see "## Findings"). A hit on the only entry leaves the list intact. A hit on the tail of two
leaves the forward links and the tail intact, but the new head keeps a stale `prev`, which
no call reads while that node is the head. `LinkedLru.MoveToFront` is the corrected move to the front: it unlinks the
node unless it already is the head, clears its links, then pushes it. `GetFixed` and
`PutFixed` use it.

A `put` of a key already present keeps the node's old value (`cache/lru.py:60-61`). It
only moves the key to the front. The class docstring and the method's docstring say "add
or update", but the model follows the code: the first value is kept.

## Model

| member | source | states |
|---|---|---|
| LruCache.New | cache/lru.py:30-36 | Construction fails, reporting the given capacity, exactly when the capacity is below one; otherwise the cache is empty, valid, and has that capacity |
| LruCache.Size | cache/lru.py:89-93 | The number of entries equals the length of the recency list and never exceeds the capacity |
| LruCache.Get | cache/lru.py:39-49 | A get answers a value exactly when the key is cached, and then answers the stored value. A hit makes the key the most recent, keeps every entry, and leaves the other keys in their order. A miss answers None and leaves the cache unchanged |
| LruCache.Put | cache/lru.py:51-70 | After any put the cache is still valid: distinct keys, list and entries agree, size at most the capacity. The put key is cached and is the most recent |
| LruCache.EvictTail | cache/lru.py:68-70 | Eviction removes exactly the least recently used key, from the list and from the entries, and keeps the list distinct and in step with the entries |
| LruCache.Delete | cache/lru.py:72-76 | Delete removes exactly the key from the entries. A cached key leaves the list at its position, with the other keys keeping their order; an absent key changes nothing |
| LruCache.Reset | cache/lru.py:78-85 | Reset of a valid cache gives a valid cache of size 0 that is exactly the cache a constructor call with the same capacity makes |
| Recency.Promote | cache/lru.py:95-103 | Moving a key to the front puts it first and keeps the rest in order (removing the key from either list gives the same result). Distinct lists stay distinct, and the length grows only when the key was absent |
| LruProperties.PutPresent | cache/lru.py:60-61 | A put of a cached key keeps the entries, including the first value, and the size; only the recency order changes |
| LruProperties.PutFreshRoom | cache/lru.py:62-66 | A put of a new key while there is room stores it with the given value and puts it in front of the old list |
| LruProperties.PutFreshFull | cache/lru.py:62-70 | A put of a new key into a full cache drops the least recently used key and puts the new key in front of the rest |
| LruProperties.PutEvictsAtMostOne | cache/lru.py:68-70 | A put loses a key only when the cache was full, and the lost key is the least recently used one |
| LruProperties.PutGainsOnlyItsKey | cache/lru.py:60-64 | A put adds no key except its own |
| LruProperties.GetAfterPut | cache/lru.py:39-70 | A get right after a put of the same key hits, with the key's first value if it was already cached and the put value otherwise |
| LruProperties.GetAfterDelete | cache/lru.py:72-76 | After a delete the key misses. The size drops by one exactly when the key was cached, and deleting twice is deleting once |
| LruProperties.ResetTwice | cache/lru.py:78-85 | Resetting a reset cache changes nothing |
| LruProperties.PutAllFreshOrder | tests/lru_cache_tests.py:24-25 | Putting distinct new keys that fit leaves them in reverse order of insertion, in front of the old list |
| LruProperties.PutAllFreshStore | tests/lru_cache_tests.py:24-25 | After putting distinct new keys that fit, each key holds its value and the old entries are kept |
| LruProperties.GetAllPresent | tests/lru_cache_tests.py:27-28 | Getting cached keys one after another answers each key's stored value, even though each get reorders the list |
| LruProperties.FillThenGet | tests/lru_cache_tests.py:20-28 | After filling a new cache to capacity with distinct keys, getting every key answers the value it was put with |
| LruProperties.FillThenEvictFirst | tests/lru_cache_tests.py:30-41 | After filling a new cache to capacity, one more new key evicts the first key put, and only that key |
| LruProperties.EvictFirstOfFull | cache/lru.py:62-70 | In a full cache filled in order, a new key evicts the first key put and keeps the other keys with their values |
| LinkedLru.New | cache/lru.py:30-36 | Construction raises ValueError exactly when the capacity is below one; otherwise the dictionary is empty and head and tail are None |
| LinkedLru.Size | cache/lru.py:89-93 | The size is the number of keys in the dictionary, and in a well-formed cache it never exceeds the number of nodes in the arena |
| LinkedLru.KeysWithinNodes | cache/lru.py:60-64 | A dictionary that maps each key to a node carrying that key has no more keys than there are nodes, since no two keys share a node |
| LinkedLru.LinkFront | cache/lru.py:110-112 | The node's successor is the old head, and the node becomes the head; the dictionary, the payloads and the tail are unchanged |
| LinkedLru.TailAfterHead | cache/lru.py:114-117 | The head's successor becomes the tail and has no successor |
| LinkedLru.Push | cache/lru.py:104-117 | `_push` raises AttributeError exactly when the size is not 1 and there is no head. Otherwise the node becomes the head and the dictionary and payloads are unchanged |
| LinkedLru.Pop | cache/lru.py:124-127 | `_pop` raises exactly when the tail has no predecessor. Otherwise the new tail has no successor, and the head, dictionary and payloads are unchanged |
| LinkedLru.Bypass | cache/lru.py:138-141 | The interior branch of `_unlink` raises exactly when a neighbour of the node is None. Otherwise the node's own links are cleared and head and tail stay |
| LinkedLru.Unlink | cache/lru.py:129-141 | `_unlink` changes neither the dictionary nor the payloads, and raises only for a node that is not the head. A node that is neither head nor tail ends with no links. The node stays the head only when it had no successor or was its own successor |
| LinkedLru.Forget | cache/lru.py:76 | `del self._cache[key]`, as at lines 69 and 76: exactly the key leaves the dictionary, and the links of the list, the payloads, and head and tail are untouched |
| LinkedLru.EvictIfFull | cache/lru.py:54-70 | Within capacity nothing changes. Over capacity, an eviction that does not raise deletes exactly the key carried by the tail node, whatever the list looks like, and the tail's predecessor becomes the tail. It keeps the other mappings and brings a cache one over capacity back within it |
| LinkedLru.Admit | cache/lru.py:60-64 | A cached key reuses its node and changes nothing. A new key gets a fresh node at the end of the arena, mapped in the dictionary, and the size grows by one |
| LinkedLru.Get | cache/lru.py:39-49 | A miss answers None and changes nothing. A hit raises exactly when the size is not 1 and there is no head; otherwise it answers the node's value, makes the node the head, and keeps the dictionary and payloads |
| LinkedLru.Put | cache/lru.py:51-70 | A put that does not raise leaves the cache well formed (every reference names a node, the dictionary maps each key to a node carrying it) with the same capacity |
| LinkedLru.PutKeys | cache/lru.py:60-70 | Whatever the state of the list, a put that does not raise gains no key except its own and loses at most one, the one evicted |
| LinkedLru.PutSize | cache/lru.py:51-70 | A put that does not raise keeps a cache that is within capacity within it (tests/lru_cache_tests.py:11-18), and a put of a key already cached changes neither the dictionary nor any payload |
| LinkedLru.Delete | cache/lru.py:72-76 | An absent key changes nothing. A delete that does not raise removes exactly that key from the dictionary and keeps the payloads |
| LinkedLru.Reset | cache/lru.py:78-85 | After a reset the dictionary is empty, head and tail are None, and the capacity is kept; the test at tests/lru_cache_tests.py:43-54 checks the first three (not the capacity) |
| LinkedLru.ResetTwice | cache/lru.py:78-85 | Resetting twice is resetting once |
| LinkedLru.MoveToFront | cache/lru.py:95-103 | The corrected move to the front makes the node the head and keeps the dictionary and payloads |
| LinkedLru.GetFixed | cache/lru.py:39-49 | The corrected get: a miss changes nothing; a hit answers the node's value and keeps the dictionary and payloads |
| LinkedLru.PutFixed | cache/lru.py:51-70 | The corrected put keeps the cache well formed and the capacity |
| ListChain.LinkFrontLinkage | cache/lru.py:110-112 | Linking a node that is not on the list in front of the head extends the list by that node |
| ListChain.PushChain | cache/lru.py:104-117 | `_push` of a detached node onto an intact list succeeds and yields the list with the node in front |
| ListChain.PopChain | cache/lru.py:124-127 | `_pop` on an intact list of two or more nodes succeeds and drops the last node |
| ListChain.UnlinkHeadChain | cache/lru.py:130-134 | Unlinking the head of an intact list of two or more nodes drops the first node |
| ListChain.BypassChain | cache/lru.py:138-141 | Bypassing an interior node of an intact list cuts exactly that node out |
| ListChain.UnlinkChain | cache/lru.py:129-141 | `_unlink` of any node of an intact list succeeds and cuts that node out |
| ListChain.MoveToFrontChain | cache/lru.py:104-141 | The corrected move to the front takes the node out of an intact list and puts it first |
| ListChain.EvictChain | cache/lru.py:68-70 | On an intact list one over capacity, eviction drops the last node and exactly its key, and keeps the payloads |
| ListChain.EvictBehindFront | cache/lru.py:68-70 | Eviction from a list with a node in front drops the last node of the rest and exactly its key |
| ListChain.AdmitPush | cache/lru.py:60-66 | A new key's node is entered in the dictionary and pushed in front of the intact list. The corrected put does exactly the same |
| ListChain.PutFreshRoomChain | cache/lru.py:51-70 | A put of a new key with room puts its node in front of the list; the dictionary gains exactly that key |
| ListChain.PutFreshFullChain | cache/lru.py:51-70 | A put of a new key into a full list puts its node in front and drops the last node and its key |
| ListChain.WalkFrom | cache/lru.py:110-117 | Following successor references from any node of an intact list meets the keys of the rest of the list, in order |
| ListChain.WalkChain | cache/lru.py:110-117 | Following successor references from the head of a non-empty intact list meets its keys, in order |
| Refinement.NewRefines | cache/lru.py:30-36 | Both constructions fail for the same capacities, and otherwise the linked cache stands for the empty abstract cache |
| Refinement.PutFreshRefines | cache/lru.py:51-70 | A put of a key the cache does not hold, as written, succeeds and stands for the abstract put; the corrected put does the same thing |
| Refinement.MoveToFrontRefines | cache/lru.py:95-103 | The corrected move to the front of a cached key stands for moving the key to the front of the recency list |
| Refinement.GetFixedRefines | cache/lru.py:39-49 | The corrected get succeeds with the abstract get's answer and stands for the abstract state after it |
| Refinement.GetMissRefines | cache/lru.py:44-49 | A get of an absent key, as written, answers None and changes neither layer |
| Refinement.PutFixedRefines | cache/lru.py:51-70 | The corrected put succeeds on every key and stands for the abstract put |
| Refinement.DeleteRefines | cache/lru.py:72-76 | Delete, on a cached or an absent key, succeeds and stands for the abstract delete |
| Refinement.ResetRefines | cache/lru.py:78-85 | A reset linked cache stands for the reset abstract cache |
| Refinement.WalkIsOrder | cache/lru.py:104-117 | Walking the list from the head of a non-empty linked cache meets exactly the recency list |
| Refinement.ReprReads | cache/lru.py:89-93 | A linked cache that stands for an abstract one has the same size, and a non-empty one walks from the head as the recency list and stops after its last key |
| Traces.PutStepRefines | cache/lru.py:51-70 | A put (any put when corrected; a put of a new key as written) succeeds and leaves the linked cache representing the abstract cache after the same put |
| Traces.GetStepRefines | cache/lru.py:39-49 | A get (any get when corrected; a miss as written) succeeds, answers what the abstract cache answers, and keeps the representation |
| Traces.StepRefines | cache/lru.py:39-85 | One call (any call when corrected; a new-key put, a miss, a delete or a reset as written) succeeds, answers as the abstract cache, and keeps the representation |
| Traces.ExecSameOffPromotion | cache/lru.py:39-85 | The correction changes nothing on a put of a new key, a get that misses, a delete or a reset: both versions give the same result |
| Traces.RunRefines | cache/lru.py:39-85 | A whole sequence of calls (any when corrected; list-safe calls as written) succeeds, answers as the abstract cache, and keeps the representation |
| Traces.FixedRunsFromNew | cache/lru.py:30-85 | From a new cache, the corrected code runs every sequence of calls without raising, answers as the abstract cache and has its size. While the cache holds a key, its list walked from the head is the recency list and stops after the last key; an empty cache may have a stale head (see "## Left out") |
| Traces.ListSafeRunsFromNew | cache/lru.py:30-85 | The same as `FixedRunsFromNew` for the code as written, on every list-safe sequence of calls |
| Traces.GetsAsWritten | cache/lru.py:39-49 | Gets as written, whatever they do to the list, answer every key as the abstract cache does, provided the dictionary holds the abstract entries and a non-empty cache has a head |
| Traces.FillAsWritten | tests/lru_cache_tests.py:24-25 | Puts of distinct keys from a new cache, as written, succeed and stand for the abstract fill |
| Traces.PutsStayWithinCapacity | tests/lru_cache_tests.py:11-18 | After every prefix of a run of distinct puts, as written, the size is at most the capacity |
| Traces.ExecStaysWithinCapacity | cache/lru.py:39-85 | Any call of the code as written that does not raise keeps a cache within capacity within it, whatever its list looks like |
| Traces.RunStaysWithinCapacity | cache/lru.py:39-85 | Any sequence of calls as written that does not raise, including re-puts, hits and deletes that break the list, keeps a cache within capacity within it |
| Traces.RunsFromNewStayWithinCapacity | tests/lru_cache_tests.py:11-18 | From a new cache, every run of calls as written that does not raise ends with at most `capacity` entries |
| Traces.FillThenGetAsWritten | tests/lru_cache_tests.py:20-28 | As written, filling a new cache to capacity and then getting every key answers each value put |
| Traces.FillThenEvictAsWritten | tests/lru_cache_tests.py:30-41 | As written, filling to capacity and putting one more key makes the first key miss, and keeps the other keys and the new one |
| Traces.GetThenDeleteAsWritten | tests/lru_cache_tests.py:56-64 | As written, a get of a cached key answers its value; deleting the key afterwards succeeds, lowers the size by one, and the key then misses |
| Divergences.KeyErrorOnStaleTail | cache/lru.py:66-70 | Capacity 2: put 1, put 2, get 2, delete 2, put 3, put 4 raises KeyError as written, because the tail still names the deleted node |
| Divergences.AttributeErrorOnDelete | cache/lru.py:137-139 | Capacity 2: put 1, put 2, get 2, delete 1 raises AttributeError as written, because the node is neither head nor tail but has no successor |
| Divergences.HeadSelfLoop | cache/lru.py:110-112 | Capacity 3: after put 1, 2, 3 and get 3, the head is its own successor, so walking from the head meets key 3 over and over |
| Divergences.TouchedKeyEvicted | cache/lru.py:110-117 | Capacity 3: after put 1, 2, 3, get 1 and put 4, key 1 (the most recently used) is evicted, key 2 is kept, and the list from the head holds only key 4 |
| Divergences.StaleHeadAfterDelete | cache/lru.py:130-134 | Capacity 1: after put 1 and delete 1, with or without the correction, the cache is empty but the head still names the deleted node |
| Divergences.TailNoneAfterFirstPut | cache/lru.py:104-108 | After the first put the single entry is the head, but the tail is None |
| Divergences.TailSetAfterEviction | cache/lru.py:124-127 | A single entry left by an eviction is both head and tail |
| Divergences.PutEvictsOwnKey | cache/lru.py:66-70 | Capacity 2: after put 1, put 2, get 2, delete 2, put 3, the put of 2 returns normally but evicts key 2 itself, because the stale tail node carries key 2; a get of 2 right after it misses |
| Divergences.InteriorGetCrosses | cache/lru.py:110-112 | Capacity 3, list 3, 2, 1: get 2 of the middle entry leaves two nodes pointing at each other, so the walk from the head meets 2, 3, 2, 3 and never key 1 |
| Divergences.TailGetCycles | cache/lru.py:110-112 | Capacity 3, list 3, 2, 1: get 1 of the tail leaves a cycle through all three nodes, with node 0 both head and tail |

## Findings

| source | as written | input that shows it | evidently intended | confidence | as-written member | corrected member |
|---|---|---|---|---|---|---|
| cache/lru.py:110-112 | `_push` links the node in front of the current head without first taking it out of the list. A `get` or a re-`put` of a cached key therefore leaves stale neighbour links, and can make the head its own successor or leave the tail behind | capacity 2: `put(1)`, `put(2)`, `get(2)`, `delete(2)`, `put(3)`, `put(4)` raises KeyError at line 69 | move the node to the front: unlink it unless it already is the head, clear its links, then push it, so the list stays the recency list | high; not executed | Divergences.KeyErrorOnStaleTail | LinkedLru.MoveToFront |

`Traces.FixedRunsFromNew` proves the intended property of the correction: from a new cache, the
code with `MoveToFront` runs every sequence of calls without raising and answers every call as
the abstract cache does. While it holds a key, its list walks from head to tail as the recency
list. `Divergences.AttributeErrorOnDelete`, `Divergences.HeadSelfLoop`,
`Divergences.TouchedKeyEvicted`, `Divergences.PutEvictsOwnKey`, `Divergences.InteriorGetCrosses`
and `Divergences.TailGetCycles` show further consequences of the same defect.

## Left out

- `main.py`, a console demonstration, is not part of this model; it only performs I/O.
- The tests draw capacities and key counts at random. The lemmas quantify over all
  capacities and all distinct key sequences instead.
- Hashing and the O(1) cost of dictionary operations are not modelled. The dictionary is a
  Dafny `map`.
- Python object identity is modelled by arena indices. A node is never removed from the
  arena, so garbage collection of unreachable nodes is not modelled.
- When a call raises, Python leaves the object as the statements before the exception made
  it. The model returns `Err` and drops that state, so calls made after a caught exception
  are not modelled.
- Concurrent use is not modelled: the class has no locking, and the model is
  single-threaded.
- Keys are annotated `str` in the source. The model is generic in the key and value types
  (any type with equality for keys), and the runs in `Divergences` use integers.
- LinkedLru.Put: the contract does not claim the abstract put's result, because the code as
  written does not achieve it for a cached key. The abstract behaviour is proved only for
  new keys (`Refinement.PutFreshRefines`) and for the corrected put (`Refinement.PutFixedRefines`).
- LinkedLru.Get: the contract gives the answer and the new head, but not the list shape
  after a hit, which as written is broken. `Divergences` exhibits the shapes.
- LinkedLru.PutFixed: the contract states only well-formedness and the capacity. Its
  agreement with the abstract put is the separate lemma `Refinement.PutFixedRefines`.
- Traces.RunRefines: for the code as written, the lemma covers only sequences of list-safe
  calls (puts of new keys, misses, deletes, resets), since other sequences can break the list.
- Traces.FixedRunsFromNew: the walk is claimed only while the cache holds a key. The
  correction leaves `_unlink` as written, and its head branch (lines 130-134) leaves the
  head on a deleted lone node, so an empty cache can still walk to a deleted key
  (`Divergences.StaleHeadAfterDelete`). No call reads that head before the next put
  replaces it (line 107).
- Refinement.Repr leaves the tail unconstrained while one entry is cached. The code has
  three conventions there: None after the first put, the head after an eviction, and a
  stale node after deletes.
- ListChain.Walk takes a fuel bound because a broken list can be cyclic. Walks are
  compared only up to that bound.

=== FILE: chain.dfy ===
/**
 * The doubly linked list inside a `Linked` cache, read as a sequence of
 * node ids from head to tail, and how the list operations of
 * `cache/lru.py` change that sequence when the list is intact.
 */
module ListChain {
  import opened Wrappers
  import opened Recency
  import opened LinkedLru

  /** Node `a` and node `b` are linked both ways, `a` before `b`. */
  ghost predicate Link<K, V>(c: Linked<K, V>, a: nat, b: nat)
  {
    a < |c.links| && b < |c.links| && c.links[a].next == Some(b) && c.links[b].prev == Some(a)
  }

  /** `ids` is the list from the head on: distinct nodes, the head is the
      first, each is linked to the next, and the last has no successor. */
  ghost predicate Linkage<K, V>(c: Linked<K, V>, ids: seq<nat>)
  {
    && (forall i :: 0 <= i < |ids| ==> ids[i] < |c.links|)
    && Distinct(ids)
    && (|ids| > 0 ==> c.head == Some(ids[0]) && c.links[ids[|ids| - 1]].next.None?)
    && (forall i :: 0 <= i < |ids| - 1 ==> Link(c, ids[i], ids[i + 1]))
  }

  /** `ids` is the list from head to tail: its linkage, and from two nodes
      on the tail is the last. With fewer than two nodes the implementation
      keeps no single convention for `_tail`, so none is required. */
  ghost predicate Chain<K, V>(c: Linked<K, V>, ids: seq<nat>)
  {
    Linkage(c, ids) && (|ids| >= 2 ==> c.tail == Some(ids[|ids| - 1]))
  }

  /** A list is unaffected by changes to nodes outside it. */
  lemma LinkageFrame<K, V>(c: Linked<K, V>, d: Linked<K, V>, ids: seq<nat>)
    requires Linkage(c, ids) && d.head == c.head
    requires forall i :: 0 <= i < |ids| ==> ids[i] < |d.links| && d.links[ids[i]] == c.links[ids[i]]
    ensures Linkage(d, ids)
  {
    forall i | 0 <= i < |ids| - 1
      ensures Link(d, ids[i], ids[i + 1])
    {
      assert Link(c, ids[i], ids[i + 1]);
    }
  }

  /** Lines 110-112 of `_push` on a detached node and a non-empty list put
      the node in front of the list. */
  lemma LinkFrontLinkage<K, V>(c: Linked<K, V>, ids: seq<nat>, n: nat)
    requires Wf(c) && Linkage(c, ids) && |ids| > 0 && n < |c.nodes|
    requires forall i :: 0 <= i < |ids| ==> ids[i] != n
    ensures Linkage(LinkFront(c, n), [n] + ids)
  {
    var ids' := [n] + ids;
    assert Distinct(ids') by {
      DistinctCons(n, ids);
      ElemsMember(ids, n);
    }
    var h := ids[0];
    var c1 := LinkFront(c, n);
    assert c1.links[h].prev == Some(n) && c1.links[h].next == c.links[h].next;
    forall i | 0 <= i < |ids|
      ensures c1.links[ids[i]].next == c.links[ids[i]].next
      ensures i > 0 ==> c1.links[ids[i]] == c.links[ids[i]]
    {
      if i > 0 {
        assert ids[i] != ids[0];
      }
    }
    forall i | 0 <= i < |ids'| - 1
      ensures Link(c1, ids'[i], ids'[i + 1])
    {
      if i > 0 {
        assert Link(c, ids[i - 1], ids[i]);
      }
    }
    assert ids'[|ids'| - 1] == ids[|ids| - 1];
  }

  /** `_push` of a detached node in front of an intact list, with the
      node already counted in the dictionary, gives the longer list. */
  lemma PushChain<K, V>(c: Linked<K, V>, ids: seq<nat>, n: nat)
    requires Wf(c) && Chain(c, ids) && n < |c.nodes| && c.links[n].next.None?
    requires forall i :: 0 <= i < |ids| ==> ids[i] != n
    requires Size(c) == |ids| + 1
    ensures Push(c, n).Ok? && Chain(Push(c, n).value, [n] + ids)
  {
    if |ids| == 0 {
      var r := c.(head := Some(n));
      assert Push(c, n) == Ok(r);
      assert Chain(r, [n]);
    } else {
      var c1 := LinkFront(c, n);
      LinkFrontLinkage(c, ids, n);
      if |ids| == 1 {
        var c2 := TailAfterHead(c1);
        assert Push(c, n) == Ok(c2);
        assert c2.links == c1.links;
        assert Chain(c2, [n] + ids);
      } else {
        assert Push(c, n) == Ok(c1);
        assert Chain(c1, [n] + ids);
      }
    }
  }

  /** `_pop` on a list of two or more nodes drops the last one. */
  lemma PopChain<K, V>(c: Linked<K, V>, ids: seq<nat>)
    requires Wf(c) && Chain(c, ids) && |ids| >= 2
    ensures Pop(c).Ok? && Chain(Pop(c).value, ids[..|ids| - 1])
  {
    var m := |ids| - 1;
    var ids' := ids[..m];
    assert Link(c, ids[m - 1], ids[m]);
    var r := SetNext(c, ids[m - 1], None).(tail := Some(ids[m - 1]));
    assert Pop(c) == Ok(r);
    DistinctSlice(ids, 0, m);
    forall j | 0 <= j < m - 1
      ensures Link(r, ids'[j], ids'[j + 1])
    {
      assert Link(c, ids[j], ids[j + 1]);
      assert ids[j] != ids[m - 1];
    }
    assert Chain(r, ids');
  }

  /** Lines 131-134 of `_unlink`: taking the head out of a list of two or
      more nodes makes its successor the head. */
  lemma UnlinkHeadChain<K, V>(c: Linked<K, V>, ids: seq<nat>)
    requires Wf(c) && Chain(c, ids) && |ids| >= 2
    ensures Unlink(c, ids[0]).Ok? && Chain(Unlink(c, ids[0]).value, ids[1..])
  {
    var ids' := ids[1..];
    assert Link(c, ids[0], ids[1]);
    var r := SetPrev(c, ids[1], None).(head := Some(ids[1]));
    assert Unlink(c, ids[0]) == Ok(r);
    DistinctSlice(ids, 1, |ids|);
    forall j | 0 <= j < |ids'|
      ensures j > 0 ==> r.links[ids'[j]] == c.links[ids'[j]]
      ensures r.links[ids'[j]].next == c.links[ids'[j]].next
    {
      if j > 0 {
        assert ids[j + 1] != ids[1];
      }
    }
    forall j | 0 <= j < |ids'| - 1
      ensures Link(r, ids'[j], ids'[j + 1])
    {
      assert Link(c, ids[j + 1], ids[j + 2]);
    }
    assert Chain(r, ids');
  }

  /** Lines 138-141 of `_unlink`: bypassing an interior node links its
      neighbours to each other. */
  lemma BypassChain<K, V>(c: Linked<K, V>, ids: seq<nat>, i: nat)
    requires Wf(c) && Chain(c, ids) && 0 < i < |ids| - 1
    ensures Bypass(c, ids[i]).Ok? && Chain(Bypass(c, ids[i]).value, Cut(ids, i))
  {
    var n := ids[i];
    var ids' := Cut(ids, i);
    assert Link(c, ids[i - 1], n) && Link(c, n, ids[i + 1]);
    assert ids[i - 1] != n && ids[i + 1] != n && ids[i - 1] != ids[i + 1];
    var c1 := SetNext(c, ids[i - 1], Some(ids[i + 1]));
    var c2 := SetPrev(c1, ids[i + 1], Some(ids[i - 1]));
    var r := SetPrev(SetNext(c2, n, None), n, None);
    assert Bypass(c, n) == Ok(r);
    CutDistinct(ids, i);
    forall j | 0 <= j < |ids'|
      ensures ids'[j] != ids[i - 1] && ids'[j] != ids[i + 1] ==> r.links[ids'[j]] == c.links[ids'[j]]
      ensures r.links[ids'[j]].next == if ids'[j] == ids[i - 1] then Some(ids[i + 1]) else c.links[ids'[j]].next
      ensures ids'[j] != ids[i + 1] ==> r.links[ids'[j]].prev == c.links[ids'[j]].prev
    {
    }
    assert r.links[ids[i + 1]].prev == Some(ids[i - 1]);
    forall j | 0 <= j < |ids'| - 1
      ensures Link(r, ids'[j], ids'[j + 1])
    {
      if j < i - 1 {
        assert Link(c, ids[j], ids[j + 1]);
        assert ids[j + 1] != ids[i + 1];
      } else if j > i - 1 {
        assert Link(c, ids[j + 1], ids[j + 2]);
        assert ids[j + 1] != ids[i - 1];
      }
    }
    assert Chain(r, ids');
  }

  /** `_unlink` of any node of an intact list cuts it out of the list. */
  lemma UnlinkChain<K, V>(c: Linked<K, V>, ids: seq<nat>, i: nat)
    requires Wf(c) && Chain(c, ids) && i < |ids|
    ensures Unlink(c, ids[i]).Ok? && Chain(Unlink(c, ids[i]).value, Cut(ids, i))
  {
    if |ids| == 1 {
      assert Unlink(c, ids[0]) == Ok(c);
      assert Chain(c, Cut(ids, i));
    } else if i == 0 {
      UnlinkHeadChain(c, ids);
      assert Cut(ids, 0) == ids[1..];
    } else if i == |ids| - 1 {
      assert ids[0] != ids[i];
      assert Unlink(c, ids[i]) == Pop(c);
      PopChain(c, ids);
      assert Cut(ids, i) == ids[..|ids| - 1];
    } else {
      assert ids[0] != ids[i] && ids[|ids| - 1] != ids[i];
      assert Unlink(c, ids[i]) == Bypass(c, ids[i]);
      BypassChain(c, ids, i);
    }
  }

  /** Only links, head and tail make up the list. */
  lemma ChainSameLinks<K, V>(c: Linked<K, V>, d: Linked<K, V>, ids: seq<nat>)
    requires Chain(c, ids)
    requires d.links == c.links && d.head == c.head && d.tail == c.tail
    ensures Chain(d, ids)
  {
    LinkageFrame(c, d, ids);
  }

  /** The corrected move to the front takes the node out of the list and
      puts it in front; the other nodes keep their order. */
  lemma MoveToFrontChain<K, V>(c: Linked<K, V>, ids: seq<nat>, i: nat)
    requires Wf(c) && Chain(c, ids) && i < |ids| && Size(c) == |ids|
    ensures MoveToFront(c, ids[i]).Ok? && Chain(MoveToFront(c, ids[i]).value, [ids[i]] + Cut(ids, i))
  {
    var n := ids[i];
    if c.head == Some(n) {
      assert i == 0;
      assert [ids[i]] + Cut(ids, i) == ids;
    } else {
      UnlinkChain(c, ids, i);
      var c1 := Unlink(c, n).value;
      var c2 := SetPrev(SetNext(c1, n, None), n, None);
      CutDistinct(ids, i);
      var rest := Cut(ids, i);
      LinkageFrame(c1, c2, rest);
      assert Chain(c2, rest);
      PushChain(c2, rest, n);
    }
  }

  /** Lines 68-70 of `put` on an intact list one node over capacity: the
      last node's key leaves the dictionary and the last node leaves the
      list. */
  lemma EvictChain<K, V>(c: Linked<K, V>, ids: seq<nat>)
    requires Wf(c) && Chain(c, ids) && |ids| >= 2 && Size(c) == c.capacity + 1
    requires c.nodes[ids[|ids| - 1]].key in c.dict
    ensures EvictIfFull(c).Ok?
    ensures Chain(EvictIfFull(c).value, ids[..|ids| - 1])
    ensures EvictIfFull(c).value.dict == c.dict - {c.nodes[ids[|ids| - 1]].key}
    ensures EvictIfFull(c).value.nodes == c.nodes
  {
    var c1 := Forget(c, c.nodes[ids[|ids| - 1]].key);
    ChainSameLinks(c, c1, ids);
    PopChain(c1, ids);
    assert EvictIfFull(c) == Pop(c1);
  }

  /** Eviction from a list with one node in front of `ids` drops the last
      node of `ids`; the front node stays. */
  lemma EvictBehindFront<K, V>(c: Linked<K, V>, n: nat, ids: seq<nat>)
    requires Wf(c) && Chain(c, [n] + ids) && |ids| >= 1 && Size(c) == c.capacity + 1
    requires c.nodes[ids[|ids| - 1]].key in c.dict
    ensures EvictIfFull(c).Ok?
    ensures var r := EvictIfFull(c).value;
            && Wf(r) && Chain(r, [n] + ids[..|ids| - 1]) && r.capacity == c.capacity
            && r.dict == c.dict - {c.nodes[ids[|ids| - 1]].key} && r.nodes == c.nodes
  {
    var long := [n] + ids;
    assert long[|ids|] == ids[|ids| - 1];
    EvictChain(c, long);
    assert ([n] + ids)[..|ids|] == [n] + ids[..|ids| - 1];
  }

  /** Lines 60-66 of `put` for a key not in the dictionary: the fresh node
      ends up in front of the list, with the key entered in the
      dictionary; the corrected `put` does the same. */
  lemma AdmitPush<K, V>(c: Linked<K, V>, ids: seq<nat>, k: K, v: V) returns (c2: Linked<K, V>)
    requires Wf(c) && Chain(c, ids) && k !in c.dict && Size(c) == |ids|
    ensures var n: nat := |c.nodes|; Wf(c2) && Chain(c2, [n] + ids)
    ensures c2.dict == c.dict[k := |c.nodes|] && c2.nodes == c.nodes + [Node(k, v)]
    ensures c2.capacity == c.capacity && Size(c2) == |ids| + 1
    ensures Put(c, k, v) == EvictIfFull(c2) && PutFixed(c, k, v) == Put(c, k, v)
  {
    var c1, n := Admit(c, k, v).0, Admit(c, k, v).1;
    LinkageFrame(c, c1, ids);
    PushChain(c1, ids, n);
    c2 := Push(c1, n).value;
  }

  /** `put` of a key not in the dictionary while there is room: the new
      node is in front of the list and nothing is evicted. */
  lemma PutFreshRoomChain<K, V>(c: Linked<K, V>, ids: seq<nat>, k: K, v: V)
    requires Wf(c) && Chain(c, ids) && k !in c.dict && Size(c) == |ids| < c.capacity
    ensures Put(c, k, v).Ok?
    ensures var r, n: nat := Put(c, k, v).value, |c.nodes|;
            && Wf(r) && Chain(r, [n] + ids) && r.capacity == c.capacity
            && r.dict == c.dict[k := |c.nodes|] && r.nodes == c.nodes + [Node(k, v)]
  {
    var c2 := AdmitPush(c, ids, k, v);
  }

  /** `put` of a key not in the dictionary into a full list: the new node
      is in front, and the last node and its key are gone. */
  lemma PutFreshFullChain<K, V>(c: Linked<K, V>, ids: seq<nat>, k: K, v: V)
    requires Wf(c) && Chain(c, ids) && k !in c.dict && Size(c) == |ids| == c.capacity
    requires c.nodes[ids[|ids| - 1]].key in c.dict
    ensures Put(c, k, v).Ok?
    ensures var r, n: nat := Put(c, k, v).value, |c.nodes|;
            && Wf(r) && Chain(r, [n] + ids[..|ids| - 1]) && r.capacity == c.capacity
            && r.dict == c.dict[k := |c.nodes|] - {c.nodes[ids[|ids| - 1]].key}
            && r.nodes == c.nodes + [Node(k, v)]
  {
    var c2 := AdmitPush(c, ids, k, v);
    var n: nat := |c.nodes|;
    assert c2.nodes[ids[|ids| - 1]] == c.nodes[ids[|ids| - 1]];
    EvictBehindFront(c2, n, ids);
  }

  /** The keys met by following `next` pointers from `p`, at most `fuel`
      of them: what a reader of the list sees, head first. */
  function Walk<K, V>(c: Linked<K, V>, p: Option<nat>, fuel: nat): (r: seq<K>)
    ensures |r| <= fuel
    ensures |r| > 0 ==> p.Some? && p.value < |c.nodes| && r[0] == c.nodes[p.value].key
    decreases fuel
  {
    if fuel == 0 || p.None? || p.value >= |c.nodes| || p.value >= |c.links| then []
    else [c.nodes[p.value].key] + Walk(c, c.links[p.value].next, fuel - 1)
  }

  /** Walking an intact list from its `j`-th node meets the keys of the
      nodes from there to the end, and stops there. */
  lemma {:induction false} WalkFrom<K, V>(c: Linked<K, V>, ids: seq<nat>, j: nat, fuel: nat)
    requires Wf(c) && Linkage(c, ids) && j < |ids| && fuel >= |ids| - j
    ensures var w := Walk(c, Some(ids[j]), fuel);
            && |w| == |ids| - j
            && forall t :: 0 <= t < |w| ==> w[t] == c.nodes[ids[j + t]].key
    decreases |ids| - j
  {
    var w := Walk(c, Some(ids[j]), fuel);
    if j == |ids| - 1 {
      assert w == [c.nodes[ids[j]].key];
    } else {
      assert Link(c, ids[j], ids[j + 1]);
      WalkFrom(c, ids, j + 1, fuel - 1);
      var rest := Walk(c, Some(ids[j + 1]), fuel - 1);
      assert w == [c.nodes[ids[j]].key] + rest;
      forall t | 0 <= t < |w|
        ensures w[t] == c.nodes[ids[j + t]].key
      {
        if t > 0 {
          assert w[t] == rest[t - 1];
        }
      }
    }
  }

  /** Walking a non-empty intact list from the head meets its keys in
      list order. */
  lemma WalkChain<K, V>(c: Linked<K, V>, ids: seq<nat>, fuel: nat)
    requires Wf(c) && Chain(c, ids) && 0 < |ids| <= fuel
    ensures var w := Walk(c, c.head, fuel);
            && |w| == |ids|
            && forall t :: 0 <= t < |w| ==> w[t] == c.nodes[ids[t]].key
  {
    WalkFrom(c, ids, 0, fuel);
  }
}

=== FILE: divergences.dfy ===
/**
 * Runs of the code as written on small integer caches (key i stored with
 * value i, its first node at arena index i - 1), where the linked list
 * stops standing for the recency list. Each run is spelled out state by state;
 * the states are named after the calls that lead to them.
 */
module Divergences {
  import opened Wrappers
  import opened LinkedLru
  import opened ListChain
  import opened Traces
  import Refinement
  import LruCache
  import LruProperties

  function N(k: int): Node<int, int> { Node(k, k) }

  /** No entries. */
  function Empty(cap: int): Linked<int, int> { Linked(cap, [], [], map[], None, None) }

  /** After put 1: head is node 0, tail is still None (lines 105-108). */
  function One(cap: int): Linked<int, int> {
    Linked(cap, [N(1)], [Links(None, None)], map[1 := 0], Some(0), None)
  }

  /** After put 1, put 2 with room: the list is 2, 1. */
  function Two(cap: int): Linked<int, int> {
    Linked(cap, [N(1), N(2)], [Links(Some(1), None), Links(None, Some(0))], map[1 := 0, 2 := 1], Some(1), Some(0))
  }

  lemma PutFirst(cap: int)
    requires cap >= 1
    ensures Wf(Empty(cap)) && Exec(Empty(cap), PutOp(1, 1), false) == Ok((One(cap), None))
  {
    var c := Empty(cap);
    var a := Admit(c, 1, 1);
    assert a.0.nodes == [N(1)] && a.0.links == [Links(None, None)] && a.0.dict == map[1 := 0];
    assert Push(a.0, 0) == Ok(One(cap));
  }

  lemma PutSecond(cap: int)
    requires cap >= 2
    ensures Wf(One(cap)) && Exec(One(cap), PutOp(2, 2), false) == Ok((Two(cap), None))
  {
    var a := Admit(One(cap), 2, 2);
    assert a.1 == 1;
    assert a.0.nodes == Two(cap).nodes;
    assert a.0.links == [Links(None, None), Links(None, None)];
    assert a.0.dict == Two(cap).dict;
    var p := LinkFront(a.0, 1);
    assert p.links == [Links(Some(1), None), Links(None, Some(0))];
    assert Push(a.0, 1) == Ok(TailAfterHead(p));
    assert TailAfterHead(p) == Two(cap);
  }

  /** Capacity 2, after get 2 on `Two`: node 1 was pushed in front of
      itself, so it is its own predecessor, and it is both head and tail;
      node 0 hangs off the list. */
  function HeadTwice(): Linked<int, int> {
    Linked(2, [N(1), N(2)], [Links(Some(1), None), Links(Some(1), None)], map[1 := 0, 2 := 1], Some(1), Some(1))
  }

  /** Then delete 2: node 1 leaves the dictionary but stays head and
      tail. */
  function StaleEnds(): Linked<int, int> {
    Linked(2, [N(1), N(2)], [Links(Some(1), None), Links(Some(1), None)], map[1 := 0], Some(1), Some(1))
  }

  /** Then put 3: the new node 2 goes in front of the stale node 1, which
      becomes the tail again. */
  function StaleTail(): Linked<int, int> {
    Linked(2, [N(1), N(2), N(3)], [Links(Some(1), None), Links(Some(2), None), Links(None, Some(1))],
           map[1 := 0, 3 := 2], Some(2), Some(1))
  }

  lemma GetHeadOfTwo()
    ensures Wf(Two(2)) && Exec(Two(2), GetOp(2), false) == Ok((HeadTwice(), Some(2)))
  {
    var p := LinkFront(Two(2), 1);
    assert p.links == [Links(Some(1), None), Links(Some(1), Some(1))];
    assert Push(Two(2), 1) == Ok(TailAfterHead(p));
    assert TailAfterHead(p) == HeadTwice();
  }

  lemma DeleteHeadTwice()
    ensures Wf(HeadTwice()) && Exec(HeadTwice(), DeleteOp(2), false) == Ok((StaleEnds(), None))
  {
    assert Unlink(HeadTwice(), 1) == Ok(HeadTwice());
    assert HeadTwice().dict - {2} == map[1 := 0];
  }

  lemma PutOnStaleEnds()
    ensures Wf(StaleEnds()) && Exec(StaleEnds(), PutOp(3, 3), false) == Ok((StaleTail(), None))
  {
    var a := Admit(StaleEnds(), 3, 3);
    assert a.1 == 2;
    assert a.0.nodes == StaleTail().nodes;
    assert a.0.links == [Links(Some(1), None), Links(Some(1), None), Links(None, None)];
    assert a.0.dict == StaleTail().dict;
    var p := LinkFront(a.0, 2);
    assert p.links == [Links(Some(1), None), Links(Some(2), None), Links(None, Some(1))];
    assert Push(a.0, 2) == Ok(TailAfterHead(p));
    assert TailAfterHead(p) == StaleTail();
  }

  lemma PutOnStaleTail()
    ensures Wf(StaleTail()) && Exec(StaleTail(), PutOp(4, 4), false) == Err(KeyError)
  {
    var a := Admit(StaleTail(), 4, 4);
    assert a.1 == 3 && |a.0.dict| == 3;
    var p := LinkFront(a.0, 3);
    assert p.tail == Some(1) && p.nodes[1].key == 2 && 2 !in p.dict;
    assert Push(a.0, 3) == Ok(p);
  }

  lemma DeleteBehindHeadTwice()
    ensures Wf(HeadTwice()) && Exec(HeadTwice(), DeleteOp(1), false) == Err(AttributeError)
  {
    assert HeadTwice().dict[1] == 0;
    assert Unlink(HeadTwice(), 0) == Bypass(HeadTwice(), 0);
  }

  /** A run whose first call succeeds fails as the rest fails. */
  lemma RunFailsLater<K, V>(c: Linked<K, V>, ops: seq<Op<K, V>>, fixed: bool, c': Linked<K, V>, ans: Option<V>, e: PyError)
    requires Wf(c) && |ops| > 0 && Exec(c, ops[0], fixed) == Ok((c', ans))
    requires Run(c', ops[1..], fixed) == Err(e)
    ensures Run(c, ops, fixed) == Err(e)
  {
  }

  /** A run whose first call succeeds ends where the rest of it ends. */
  lemma RunGoesOn<K, V>(c: Linked<K, V>, ops: seq<Op<K, V>>, fixed: bool, c': Linked<K, V>, ans: Option<V>, final: Linked<K, V>)
    requires Wf(c) && |ops| > 0 && Exec(c, ops[0], fixed) == Ok((c', ans))
    requires Run(c', ops[1..], fixed).Ok? && Run(c', ops[1..], fixed).value.0 == final
    ensures Run(c, ops, fixed).Ok? && Run(c, ops, fixed).value.0 == final
  {
  }

  /** A run of one call that succeeds ends in that call's state. */
  lemma RunOne<K, V>(c: Linked<K, V>, op: Op<K, V>, fixed: bool, c': Linked<K, V>, ans: Option<V>)
    requires Wf(c) && Exec(c, op, fixed) == Ok((c', ans))
    ensures Run(c, [op], fixed).Ok? && Run(c, [op], fixed).value.0 == c'
  {
    assert [op][1..] == [];
  }

  /** A run whose first call fails fails with it. */
  lemma RunFailsNow<K, V>(c: Linked<K, V>, ops: seq<Op<K, V>>, fixed: bool, e: PyError)
    requires Wf(c) && |ops| > 0 && Exec(c, ops[0], fixed) == Err(e)
    ensures Run(c, ops, fixed) == Err(e)
  {
  }

  /** The tail of the KeyError run, from its last state back. */
  lemma CrashFromStaleTail()
    ensures Run(StaleTail(), [PutOp(4, 4)], false) == Err(KeyError)
  {
    PutOnStaleTail();
    RunFailsNow(StaleTail(), [PutOp(4, 4)], false, KeyError);
  }

  lemma CrashFromStaleEnds()
    ensures Run(StaleEnds(), [PutOp(3, 3), PutOp(4, 4)], false) == Err(KeyError)
  {
    PutOnStaleEnds();
    CrashFromStaleTail();
    var ops := [PutOp(3, 3), PutOp(4, 4)];
    assert ops[1..] == [PutOp(4, 4)];
    RunFailsLater(StaleEnds(), ops, false, StaleTail(), None, KeyError);
  }

  lemma CrashFromHeadTwice()
    ensures Run(HeadTwice(), [DeleteOp(2), PutOp(3, 3), PutOp(4, 4)], false) == Err(KeyError)
  {
    DeleteHeadTwice();
    CrashFromStaleEnds();
    var ops := [DeleteOp(2), PutOp(3, 3), PutOp(4, 4)];
    assert ops[1..] == [PutOp(3, 3), PutOp(4, 4)];
    RunFailsLater(HeadTwice(), ops, false, StaleEnds(), None, KeyError);
  }

  lemma CrashFromTwo()
    ensures Run(Two(2), [GetOp(2), DeleteOp(2), PutOp(3, 3), PutOp(4, 4)], false) == Err(KeyError)
  {
    GetHeadOfTwo();
    CrashFromHeadTwice();
    var ops := [GetOp(2), DeleteOp(2), PutOp(3, 3), PutOp(4, 4)];
    assert ops[1..] == [DeleteOp(2), PutOp(3, 3), PutOp(4, 4)];
    RunFailsLater(Two(2), ops, false, HeadTwice(), Some(2), KeyError);
  }

  lemma CrashFromOne()
    ensures Run(One(2), [PutOp(2, 2), GetOp(2), DeleteOp(2), PutOp(3, 3), PutOp(4, 4)], false) == Err(KeyError)
  {
    PutSecond(2);
    CrashFromTwo();
    var ops := [PutOp(2, 2), GetOp(2), DeleteOp(2), PutOp(3, 3), PutOp(4, 4)];
    assert ops[1..] == [GetOp(2), DeleteOp(2), PutOp(3, 3), PutOp(4, 4)];
    RunFailsLater(One(2), ops, false, Two(2), None, KeyError);
  }

  /** Capacity 2: put 1, put 2, get 2, delete 2, put 3, put 4. As written,
      the get leaves node 2 as the tail after its delete, so the last put
      looks the stale tail's key up in the dictionary and raises KeyError
      (line 69). The corrected code runs these calls through
      (`Traces.FixedRunsFromNew`). */
  lemma KeyErrorOnStaleTail()
    ensures var ops := [PutOp(1, 1), PutOp(2, 2), GetOp(2), DeleteOp(2), PutOp(3, 3), PutOp(4, 4)];
            Run(LinkedLru.New<int, int>(2).value, ops, false) == Err(KeyError)
  {
    var ops := [PutOp(1, 1), PutOp(2, 2), GetOp(2), DeleteOp(2), PutOp(3, 3), PutOp(4, 4)];
    PutFirst(2);
    CrashFromOne();
    assert ops[1..] == [PutOp(2, 2), GetOp(2), DeleteOp(2), PutOp(3, 3), PutOp(4, 4)];
    RunFailsLater(Empty(2), ops, false, One(2), None, KeyError);
  }

  lemma DeleteFailsFromTwo()
    ensures Run(Two(2), [GetOp(2), DeleteOp(1)], false) == Err(AttributeError)
  {
    GetHeadOfTwo();
    DeleteBehindHeadTwice();
    RunFailsNow(HeadTwice(), [DeleteOp(1)], false, AttributeError);
    var ops := [GetOp(2), DeleteOp(1)];
    assert ops[1..] == [DeleteOp(1)];
    RunFailsLater(Two(2), ops, false, HeadTwice(), Some(2), AttributeError);
  }

  lemma DeleteFailsFromOne()
    ensures Run(One(2), [PutOp(2, 2), GetOp(2), DeleteOp(1)], false) == Err(AttributeError)
  {
    PutSecond(2);
    DeleteFailsFromTwo();
    var ops := [PutOp(2, 2), GetOp(2), DeleteOp(1)];
    assert ops[1..] == [GetOp(2), DeleteOp(1)];
    RunFailsLater(One(2), ops, false, Two(2), None, AttributeError);
  }

  /** Capacity 2: put 1, put 2, get 2, delete 1. As written, node 0 is
      neither head nor tail after the get, and its successor is None, so
      `_unlink` raises AttributeError (line 139). */
  lemma AttributeErrorOnDelete()
    ensures var ops := [PutOp(1, 1), PutOp(2, 2), GetOp(2), DeleteOp(1)];
            Run(LinkedLru.New<int, int>(2).value, ops, false) == Err(AttributeError)
  {
    var ops := [PutOp(1, 1), PutOp(2, 2), GetOp(2), DeleteOp(1)];
    PutFirst(2);
    DeleteFailsFromOne();
    assert ops[1..] == [PutOp(2, 2), GetOp(2), DeleteOp(1)];
    RunFailsLater(Empty(2), ops, false, One(2), None, AttributeError);
  }

  /** Capacity 3, after put 1, put 2, put 3: the list is 3, 2, 1. */
  function Three(): Linked<int, int> {
    Linked(3, [N(1), N(2), N(3)], [Links(Some(1), None), Links(Some(2), Some(0)), Links(None, Some(1))],
           map[1 := 0, 2 := 1, 3 := 2], Some(2), Some(0))
  }

  /** Then get 3: the head was pushed in front of itself and is now its
      own successor and predecessor. */
  function SelfLoop(): Linked<int, int> {
    Linked(3, [N(1), N(2), N(3)], [Links(Some(1), None), Links(Some(2), Some(0)), Links(Some(2), Some(2))],
           map[1 := 0, 2 := 1, 3 := 2], Some(2), Some(0))
  }

  /** Instead get 1: the tail was pushed in front of the head but is still
      the tail, and node 1 still points at it. */
  function TailAhead(): Linked<int, int> {
    Linked(3, [N(1), N(2), N(3)], [Links(Some(1), Some(2)), Links(Some(2), Some(0)), Links(Some(0), Some(1))],
           map[1 := 0, 2 := 1, 3 := 2], Some(0), Some(0))
  }

  /** Then put 4: the cache overflows and evicts the tail's key, 1 — the
      key just used — and the list shrinks to the new node. */
  function TouchedEvicted(): Linked<int, int> {
    Linked(3, [N(1), N(2), N(3), N(4)],
           [Links(Some(3), Some(2)), Links(Some(2), Some(0)), Links(Some(0), Some(1)), Links(None, None)],
           map[2 := 1, 3 := 2, 4 := 3], Some(3), Some(3))
  }

  lemma PutThird()
    ensures Wf(Two(3)) && Exec(Two(3), PutOp(3, 3), false) == Ok((Three(), None))
  {
    var a := Admit(Two(3), 3, 3);
    assert a.1 == 2;
    assert a.0.nodes == Three().nodes;
    assert a.0.links == [Links(Some(1), None), Links(None, Some(0)), Links(None, None)];
    assert a.0.dict == Three().dict;
    var p := LinkFront(a.0, 2);
    assert p.links == Three().links;
    assert Push(a.0, 2) == Ok(p);
    assert p == Three();
  }

  lemma GetHeadOfThree()
    ensures Wf(Three()) && Exec(Three(), GetOp(3), false) == Ok((SelfLoop(), Some(3)))
  {
    var p := LinkFront(Three(), 2);
    assert p.links == SelfLoop().links;
    assert Push(Three(), 2) == Ok(p);
    assert p == SelfLoop();
  }

  lemma GetTailOfThree()
    ensures Wf(Three()) && Exec(Three(), GetOp(1), false) == Ok((TailAhead(), Some(1)))
  {
    var p := LinkFront(Three(), 0);
    assert p.links == TailAhead().links;
    assert Push(Three(), 0) == Ok(p);
    assert p == TailAhead();
  }

  /** The put of 4 on `TailAhead`, after the new node is entered. */
  function Grown(): Linked<int, int> {
    Linked(3, [N(1), N(2), N(3), N(4)],
           [Links(Some(1), Some(2)), Links(Some(2), Some(0)), Links(Some(0), Some(1)), Links(None, None)],
           map[1 := 0, 2 := 1, 3 := 2, 4 := 3], Some(0), Some(0))
  }

  /** ... and after it is pushed: four entries, one over capacity. */
  function Overfull(): Linked<int, int> {
    Linked(3, [N(1), N(2), N(3), N(4)],
           [Links(Some(3), Some(2)), Links(Some(2), Some(0)), Links(Some(0), Some(1)), Links(None, Some(0))],
           map[1 := 0, 2 := 1, 3 := 2, 4 := 3], Some(3), Some(0))
  }

  lemma AdmitPushOnTailAhead()
    ensures Wf(TailAhead()) && Admit(TailAhead(), 4, 4) == (Grown(), 3)
    ensures Wf(Grown()) && Push(Grown(), 3) == Ok(Overfull())
  {
    var a := Admit(TailAhead(), 4, 4);
    assert a.0.nodes == Grown().nodes && a.0.links == Grown().links && a.0.dict == Grown().dict;
    var p := LinkFront(Grown(), 3);
    assert p.links == Overfull().links;
    assert Push(Grown(), 3) == Ok(p);
  }

  lemma EvictOverfull()
    ensures Wf(Overfull()) && EvictIfFull(Overfull()) == Ok(TouchedEvicted())
  {
    EvictOverfullUnfold();
    PopOverfull();
  }

  lemma EvictOverfullUnfold()
    ensures Wf(Overfull()) && EvictIfFull(Overfull()) == Pop(Forget(Overfull(), 1))
  {
    assert Overfull().nodes[0].key == 1;
  }

  lemma PopOverfull()
    ensures Wf(Overfull()) && Pop(Forget(Overfull(), 1)) == Ok(TouchedEvicted())
  {
    var f := Forget(Overfull(), 1);
    assert f.dict == TouchedEvicted().dict;
    assert f.links[0].prev == Some(3);
    var q := SetNext(f, 3, None);
    assert q.links == TouchedEvicted().links;
    assert Pop(f) == Ok(q.(tail := Some(3)));
  }

  lemma PutOnTailAhead()
    ensures Wf(TailAhead()) && Exec(TailAhead(), PutOp(4, 4), false) == Ok((TouchedEvicted(), None))
  {
    AdmitPushOnTailAhead();
    EvictOverfull();
  }

  /** From the head of `Three()` the walk meets 3, 2, 1. */
  lemma WalkThree()
    ensures Walk(Three(), Three().head, 3) == [3, 2, 1]
  {
    var c := Three();
    assert Walk(c, Some(0), 1) == [1] + Walk(c, None, 0);
    assert Walk(c, Some(1), 2) == [2] + Walk(c, Some(0), 1);
    assert Walk(c, Some(2), 3) == [3] + Walk(c, Some(1), 2);
  }

  /** From the head of `SelfLoop()` the walk meets 3 over and over. */
  lemma WalkSelfLoop()
    ensures Walk(SelfLoop(), SelfLoop().head, 3) == [3, 3, 3]
  {
    var c := SelfLoop();
    assert Walk(c, Some(2), 1) == [3] + Walk(c, Some(2), 0);
    assert Walk(c, Some(2), 2) == [3] + Walk(c, Some(2), 1);
    assert Walk(c, Some(2), 3) == [3] + Walk(c, Some(2), 2);
  }

  /** From the head of `TouchedEvicted()` the walk meets only key 4. */
  lemma WalkTouchedEvicted()
    ensures Walk(TouchedEvicted(), TouchedEvicted().head, 3) == [4]
  {
    var c := TouchedEvicted();
    assert Walk(c, None, 2) == [];
    assert Walk(c, Some(3), 3) == [4] + Walk(c, None, 2);
  }

  /** From the head of `StaleHead()` the walk meets the deleted key. */
  lemma WalkStaleHead()
    ensures Walk(StaleHead(), StaleHead().head, 1) == [1]
  {
    var c := StaleHead();
    assert Walk(c, Some(0), 1) == [1] + Walk(c, None, 0);
  }

  lemma LoopFromThree()
    ensures var r := Run(Three(), [GetOp(3)], false); r.Ok? && r.value.0 == SelfLoop()
  {
    GetHeadOfThree();
    RunOne(Three(), GetOp(3), false, SelfLoop(), Some(3));
  }

  lemma LoopFromTwo()
    ensures var r := Run(Two(3), [PutOp(3, 3), GetOp(3)], false); r.Ok? && r.value.0 == SelfLoop()
  {
    PutThird();
    LoopFromThree();
    var ops := [PutOp(3, 3), GetOp(3)];
    assert ops[1..] == [GetOp(3)];
    RunGoesOn(Two(3), ops, false, Three(), None, SelfLoop());
  }

  lemma LoopFromOne()
    ensures var r := Run(One(3), [PutOp(2, 2), PutOp(3, 3), GetOp(3)], false); r.Ok? && r.value.0 == SelfLoop()
  {
    PutSecond(3);
    LoopFromTwo();
    var ops := [PutOp(2, 2), PutOp(3, 3), GetOp(3)];
    assert ops[1..] == [PutOp(3, 3), GetOp(3)];
    RunGoesOn(One(3), ops, false, Two(3), None, SelfLoop());
  }

  lemma LoopFromEmpty()
    ensures var r := Run(Empty(3), [PutOp(1, 1), PutOp(2, 2), PutOp(3, 3), GetOp(3)], false);
            r.Ok? && r.value.0 == SelfLoop()
  {
    PutFirst(3);
    LoopFromOne();
    var ops := [PutOp(1, 1), PutOp(2, 2), PutOp(3, 3), GetOp(3)];
    assert ops[1..] == [PutOp(2, 2), PutOp(3, 3), GetOp(3)];
    RunGoesOn(Empty(3), ops, false, One(3), None, SelfLoop());
  }

  /** Capacity 3: put 1, put 2, put 3, get 3. As written, the get pushes
      the head in front of itself (lines 110-112): node 3 becomes its own
      successor, and walking the list from the head meets key 3 over and
      over, while the recency list is 3, 2, 1. */
  lemma HeadSelfLoop()
    ensures var ops := [PutOp(1, 1), PutOp(2, 2), PutOp(3, 3), GetOp(3)];
            && Run(LinkedLru.New<int, int>(3).value, ops, false).Ok?
            && Run(LinkedLru.New<int, int>(3).value, ops, false).value.0 == SelfLoop()
    ensures SelfLoop().head == Some(2) && SelfLoop().links[2].next == Some(2)
    ensures Walk(SelfLoop(), SelfLoop().head, 3) == [3, 3, 3]
  {
    WalkSelfLoop();
    assert LinkedLru.New<int, int>(3).value == Empty(3);
    LoopFromEmpty();
  }

  lemma EvictTouchedFromThree()
    ensures var r := Run(Three(), [GetOp(1), PutOp(4, 4)], false); r.Ok? && r.value.0 == TouchedEvicted()
  {
    GetTailOfThree();
    PutOnTailAhead();
    RunOne(TailAhead(), PutOp(4, 4), false, TouchedEvicted(), None);
    var ops := [GetOp(1), PutOp(4, 4)];
    assert ops[1..] == [PutOp(4, 4)];
    RunGoesOn(Three(), ops, false, TailAhead(), Some(1), TouchedEvicted());
  }

  lemma EvictTouchedFromTwo()
    ensures var r := Run(Two(3), [PutOp(3, 3), GetOp(1), PutOp(4, 4)], false); r.Ok? && r.value.0 == TouchedEvicted()
  {
    PutThird();
    EvictTouchedFromThree();
    var ops := [PutOp(3, 3), GetOp(1), PutOp(4, 4)];
    assert ops[1..] == [GetOp(1), PutOp(4, 4)];
    RunGoesOn(Two(3), ops, false, Three(), None, TouchedEvicted());
  }

  lemma EvictTouchedFromOne()
    ensures var r := Run(One(3), [PutOp(2, 2), PutOp(3, 3), GetOp(1), PutOp(4, 4)], false); r.Ok? && r.value.0 == TouchedEvicted()
  {
    PutSecond(3);
    EvictTouchedFromTwo();
    var ops := [PutOp(2, 2), PutOp(3, 3), GetOp(1), PutOp(4, 4)];
    assert ops[1..] == [PutOp(3, 3), GetOp(1), PutOp(4, 4)];
    RunGoesOn(One(3), ops, false, Two(3), None, TouchedEvicted());
  }

  lemma EvictTouchedFromEmpty()
    ensures var r := Run(Empty(3), [PutOp(1, 1), PutOp(2, 2), PutOp(3, 3), GetOp(1), PutOp(4, 4)], false);
            r.Ok? && r.value.0 == TouchedEvicted()
  {
    PutFirst(3);
    EvictTouchedFromOne();
    var ops := [PutOp(1, 1), PutOp(2, 2), PutOp(3, 3), GetOp(1), PutOp(4, 4)];
    assert ops[1..] == [PutOp(2, 2), PutOp(3, 3), GetOp(1), PutOp(4, 4)];
    RunGoesOn(Empty(3), ops, false, One(3), None, TouchedEvicted());
  }

  /** Capacity 3: put 1, put 2, put 3, get 1, put 4. As written, the get
      pushes the tail in front of the head but leaves it the tail, so the
      put evicts key 1, the key just used, and keeps 2, the least recently
      used one; afterwards the list from the head holds only the new key. */
  lemma TouchedKeyEvicted()
    ensures var ops := [PutOp(1, 1), PutOp(2, 2), PutOp(3, 3), GetOp(1), PutOp(4, 4)];
            && Run(LinkedLru.New<int, int>(3).value, ops, false).Ok?
            && Run(LinkedLru.New<int, int>(3).value, ops, false).value.0 == TouchedEvicted()
    ensures 1 !in TouchedEvicted().dict && 2 in TouchedEvicted().dict
    ensures Walk(TouchedEvicted(), TouchedEvicted().head, 3) == [4]
  {
    WalkTouchedEvicted();
    assert LinkedLru.New<int, int>(3).value == Empty(3);
    EvictTouchedFromEmpty();
  }

  /** Capacity 1, after put 1, delete 1: the dictionary is empty, but the
      head still names the deleted node (lines 130-134 change nothing when
      the head has no successor). */
  function StaleHead(): Linked<int, int> {
    Linked(1, [N(1)], [Links(None, None)], map[], Some(0), None)
  }

  /** Capacity 1, after put 1, put 2: key 1 was evicted; the one node left
      is both head and tail. */
  function Replaced(): Linked<int, int> {
    Linked(1, [N(1), N(2)], [Links(Some(1), None), Links(None, None)], map[2 := 1], Some(1), Some(1))
  }

  /** The put of 2 on `One(1)`, after the push: one entry over capacity. */
  function OverOne(): Linked<int, int> {
    Linked(1, [N(1), N(2)], [Links(Some(1), None), Links(None, Some(0))], map[1 := 0, 2 := 1], Some(1), Some(0))
  }

  lemma DeleteSole()
    ensures Wf(One(1)) && Exec(One(1), DeleteOp(1), false) == Ok((StaleHead(), None))
  {
    assert Unlink(One(1), 0) == Ok(One(1));
    assert One(1).dict - {1} == map[];
  }

  lemma PushSecondOnOne()
    ensures Wf(One(1)) && Admit(One(1), 2, 2).1 == 1
    ensures Wf(Admit(One(1), 2, 2).0) && Push(Admit(One(1), 2, 2).0, 1) == Ok(OverOne())
  {
    var a := Admit(One(1), 2, 2);
    assert a.0.nodes == OverOne().nodes && a.0.dict == OverOne().dict;
    assert a.0.links == [Links(None, None), Links(None, None)];
    var p := LinkFront(a.0, 1);
    assert p.links == [Links(Some(1), None), Links(None, Some(0))];
    assert Push(a.0, 1) == Ok(TailAfterHead(p));
    assert TailAfterHead(p) == OverOne();
  }

  lemma EvictOverOne()
    ensures Wf(OverOne()) && EvictIfFull(OverOne()) == Ok(Replaced())
  {
    var f := Forget(OverOne(), 1);
    assert f.dict == Replaced().dict;
    assert f.links[0].prev == Some(1);
    var q := SetNext(f, 1, None);
    assert q.links == Replaced().links;
    assert Pop(f) == Ok(q.(tail := Some(1)));
  }

  lemma PutSecondOnOne()
    ensures Wf(One(1)) && Exec(One(1), PutOp(2, 2), false) == Ok((Replaced(), None))
  {
    PushSecondOnOne();
    EvictOverOne();
  }

  /** Capacity 1: put 1, delete 1. The cache is empty but its head still
      names the deleted node, so a walk from the head meets the deleted
      key. The correction does not touch `_unlink`, so this holds with it
      as well as without. */
  lemma StaleHeadAfterDelete(fixed: bool)
    ensures var ops := [PutOp(1, 1), DeleteOp(1)];
            && Run(LinkedLru.New<int, int>(1).value, ops, fixed).Ok?
            && Run(LinkedLru.New<int, int>(1).value, ops, fixed).value.0 == StaleHead()
            && Size(StaleHead()) == 0 && StaleHead().head == Some(0)
            && Walk(StaleHead(), StaleHead().head, 1) == [1]
  {
    WalkStaleHead();
    PutFirst(1);
    ExecSameOffPromotion(Empty(1), PutOp(1, 1));
    DeleteSole();
    ExecSameOffPromotion(One(1), DeleteOp(1));
    RunOne(One(1), DeleteOp(1), fixed, StaleHead(), None);
    var ops := [PutOp(1, 1), DeleteOp(1)];
    assert ops[1..] == [DeleteOp(1)];
    RunGoesOn(Empty(1), ops, fixed, One(1), None, StaleHead());
  }

  /** With one entry after the first put, `_tail` is None (lines 105-108)
      although the entry is both first and last. */
  lemma TailNoneAfterFirstPut()
    ensures var r := Run(LinkedLru.New<int, int>(2).value, [PutOp(1, 1)], false); r.Ok? && r.value.0 == One(2)
    ensures Size(One(2)) == 1 && One(2).head == Some(0) && One(2).tail == None
  {
    assert LinkedLru.New<int, int>(2).value == Empty(2);
    PutFirst(2);
    RunOne(Empty(2), PutOp(1, 1), false, One(2), None);
  }

  lemma ReplacedFromOne()
    ensures var r := Run(One(1), [PutOp(2, 2)], false); r.Ok? && r.value.0 == Replaced()
  {
    PutSecondOnOne();
    RunOne(One(1), PutOp(2, 2), false, Replaced(), None);
  }

  /** With one entry left by an eviction, `_tail` names the head (lines
      125-127): the same situation as after the first put, with the other
      convention. */
  lemma TailSetAfterEviction()
    ensures var r := Run(LinkedLru.New<int, int>(1).value, [PutOp(1, 1), PutOp(2, 2)], false); r.Ok? && r.value.0 == Replaced()
    ensures Size(Replaced()) == 1 && Replaced().head == Some(1) && Replaced().tail == Some(1)
  {
    assert LinkedLru.New<int, int>(1).value == Empty(1);
    PutFirst(1);
    ReplacedFromOne();
    var ops := [PutOp(1, 1), PutOp(2, 2)];
    assert ops[1..] == [PutOp(2, 2)];
    RunGoesOn(Empty(1), ops, false, One(1), None, Replaced());
  }

  /** `StaleTail` after put 2 enters the new node: key 2 is back, on the
      fresh node 3, while the stale tail node 1 still carries key 2. */
  function StaleGrown(): Linked<int, int> {
    Linked(2, [N(1), N(2), N(3), N(2)],
           [Links(Some(1), None), Links(Some(2), None), Links(None, Some(1)), Links(None, None)],
           map[1 := 0, 3 := 2, 2 := 3], Some(2), Some(1))
  }

  /** ... and after it is pushed: three entries, one over capacity. */
  function StaleOverfull(): Linked<int, int> {
    Linked(2, [N(1), N(2), N(3), N(2)],
           [Links(Some(1), None), Links(Some(2), None), Links(Some(3), Some(1)), Links(None, Some(2))],
           map[1 := 0, 3 := 2, 2 := 3], Some(3), Some(1))
  }

  /** The eviction deletes the stale tail's key, 2, which is the key just
      put; node 3 stays at the head of the list with no dictionary entry. */
  function OwnKeyEvicted(): Linked<int, int> {
    Linked(2, [N(1), N(2), N(3), N(2)],
           [Links(Some(1), None), Links(Some(2), None), Links(Some(3), None), Links(None, Some(2))],
           map[1 := 0, 3 := 2], Some(3), Some(2))
  }

  lemma AdmitPushOnStaleTail()
    ensures Wf(StaleTail()) && Admit(StaleTail(), 2, 2) == (StaleGrown(), 3)
    ensures Wf(StaleGrown()) && Push(StaleGrown(), 3) == Ok(StaleOverfull())
  {
    var a := Admit(StaleTail(), 2, 2);
    assert a.0.nodes == StaleGrown().nodes && a.0.links == StaleGrown().links && a.0.dict == StaleGrown().dict;
    var p := LinkFront(StaleGrown(), 3);
    assert p.links == StaleOverfull().links;
    assert Push(StaleGrown(), 3) == Ok(p);
  }

  lemma EvictStaleOverfull()
    ensures Wf(StaleOverfull()) && EvictIfFull(StaleOverfull()) == Ok(OwnKeyEvicted())
  {
    var f := Forget(StaleOverfull(), 2);
    assert f.dict == OwnKeyEvicted().dict;
    assert f.links[1].prev == Some(2);
    var q := SetNext(f, 2, None);
    assert q.links == OwnKeyEvicted().links;
    assert Pop(f) == Ok(q.(tail := Some(2)));
  }

  lemma PutOwnKeyOnStaleTail()
    ensures Wf(StaleTail()) && Exec(StaleTail(), PutOp(2, 2), false) == Ok((OwnKeyEvicted(), None))
  {
    AdmitPushOnStaleTail();
    EvictStaleOverfull();
  }

  lemma OwnKeyFromStaleEnds()
    ensures var r := Run(StaleEnds(), [PutOp(3, 3), PutOp(2, 2)], false); r.Ok? && r.value.0 == OwnKeyEvicted()
  {
    PutOnStaleEnds();
    PutOwnKeyOnStaleTail();
    RunOne(StaleTail(), PutOp(2, 2), false, OwnKeyEvicted(), None);
    var ops := [PutOp(3, 3), PutOp(2, 2)];
    assert ops[1..] == [PutOp(2, 2)];
    RunGoesOn(StaleEnds(), ops, false, StaleTail(), None, OwnKeyEvicted());
  }

  lemma OwnKeyFromHeadTwice()
    ensures var r := Run(HeadTwice(), [DeleteOp(2), PutOp(3, 3), PutOp(2, 2)], false); r.Ok? && r.value.0 == OwnKeyEvicted()
  {
    DeleteHeadTwice();
    OwnKeyFromStaleEnds();
    var ops := [DeleteOp(2), PutOp(3, 3), PutOp(2, 2)];
    assert ops[1..] == [PutOp(3, 3), PutOp(2, 2)];
    RunGoesOn(HeadTwice(), ops, false, StaleEnds(), None, OwnKeyEvicted());
  }

  lemma OwnKeyFromTwo()
    ensures var r := Run(Two(2), [GetOp(2), DeleteOp(2), PutOp(3, 3), PutOp(2, 2)], false); r.Ok? && r.value.0 == OwnKeyEvicted()
  {
    GetHeadOfTwo();
    OwnKeyFromHeadTwice();
    var ops := [GetOp(2), DeleteOp(2), PutOp(3, 3), PutOp(2, 2)];
    assert ops[1..] == [DeleteOp(2), PutOp(3, 3), PutOp(2, 2)];
    RunGoesOn(Two(2), ops, false, HeadTwice(), Some(2), OwnKeyEvicted());
  }

  lemma OwnKeyFromOne()
    ensures var r := Run(One(2), [PutOp(2, 2), GetOp(2), DeleteOp(2), PutOp(3, 3), PutOp(2, 2)], false);
            r.Ok? && r.value.0 == OwnKeyEvicted()
  {
    PutSecond(2);
    OwnKeyFromTwo();
    var ops := [PutOp(2, 2), GetOp(2), DeleteOp(2), PutOp(3, 3), PutOp(2, 2)];
    assert ops[1..] == [GetOp(2), DeleteOp(2), PutOp(3, 3), PutOp(2, 2)];
    RunGoesOn(One(2), ops, false, Two(2), None, OwnKeyEvicted());
  }

  lemma OwnKeyFromEmpty()
    ensures var r := Run(Empty(2), [PutOp(1, 1), PutOp(2, 2), GetOp(2), DeleteOp(2), PutOp(3, 3), PutOp(2, 2)], false);
            r.Ok? && r.value.0 == OwnKeyEvicted()
  {
    PutFirst(2);
    OwnKeyFromOne();
    var ops := [PutOp(1, 1), PutOp(2, 2), GetOp(2), DeleteOp(2), PutOp(3, 3), PutOp(2, 2)];
    assert ops[1..] == [PutOp(2, 2), GetOp(2), DeleteOp(2), PutOp(3, 3), PutOp(2, 2)];
    RunGoesOn(Empty(2), ops, false, One(2), None, OwnKeyEvicted());
  }

  /** Capacity 2: put 1, put 2, get 2, delete 2, put 3, put 2. As written,
      the last put returns normally, but the stale tail it evicts carries
      key 2, so it deletes the entry it has just made (line 69) and a get
      of 2 right after it misses; `LruProperties.GetAfterPut` says the
      abstract cache answers 2. */
  lemma PutEvictsOwnKey()
    ensures var ops := [PutOp(1, 1), PutOp(2, 2), GetOp(2), DeleteOp(2), PutOp(3, 3), PutOp(2, 2)];
            && Run(LinkedLru.New<int, int>(2).value, ops, false).Ok?
            && Run(LinkedLru.New<int, int>(2).value, ops, false).value.0 == OwnKeyEvicted()
    ensures 2 !in OwnKeyEvicted().dict && Exec(OwnKeyEvicted(), GetOp(2), false) == Ok((OwnKeyEvicted(), None))
  {
    assert LinkedLru.New<int, int>(2).value == Empty(2);
    OwnKeyFromEmpty();
  }

  /** `Three` after get 2: the interior node 1 was pushed in front of the
      head without leaving its place, so nodes 1 and 2 point at each other
      and node 0 is off the list. */
  function Crossed(): Linked<int, int> {
    Linked(3, [N(1), N(2), N(3)], [Links(Some(1), None), Links(Some(2), Some(2)), Links(Some(1), Some(1))],
           map[1 := 0, 2 := 1, 3 := 2], Some(1), Some(0))
  }

  /** Capacity 3, on the list 3, 2, 1 that put 1, put 2, put 3 leave
      (`Three`): get 2, of the middle entry, leaves a list that walks 2, 3,
      2, 3 from the head and never reaches key 1, while the recency list
      is 2, 3, 1. */
  lemma InteriorGetCrosses()
    ensures Wf(Three()) && Exec(Three(), GetOp(2), false) == Ok((Crossed(), Some(2)))
    ensures Walk(Crossed(), Crossed().head, 4) == [2, 3, 2, 3]
  {
    var p := LinkFront(Three(), 1);
    assert p.links == Crossed().links;
    assert Push(Three(), 1) == Ok(p);
    assert p == Crossed();
    var c := Crossed();
    assert Walk(c, Some(2), 1) == [3] + Walk(c, Some(1), 0);
    assert Walk(c, Some(1), 2) == [2] + Walk(c, Some(2), 1);
    assert Walk(c, Some(2), 3) == [3] + Walk(c, Some(1), 2);
    assert Walk(c, Some(1), 4) == [2] + Walk(c, Some(2), 3);
  }

  /** On `Three`, get 1 of the tail leaves a cycle through all three nodes:
      the walk from the head meets 1, 3, 2 and then 1 again, and the tail
      is still node 0, which is now also the head. */
  lemma TailGetCycles()
    ensures Wf(Three()) && Exec(Three(), GetOp(1), false) == Ok((TailAhead(), Some(1)))
    ensures TailAhead().head == TailAhead().tail == Some(0)
    ensures Walk(TailAhead(), TailAhead().head, 4) == [1, 3, 2, 1]
  {
    GetTailOfThree();
    var c := TailAhead();
    assert Walk(c, Some(0), 1) == [1] + Walk(c, Some(2), 0);
    assert Walk(c, Some(1), 2) == [2] + Walk(c, Some(0), 1);
    assert Walk(c, Some(2), 3) == [3] + Walk(c, Some(1), 2);
    assert Walk(c, Some(0), 4) == [1] + Walk(c, Some(2), 3);
  }
}

=== FILE: linked_lru.dfy ===
/**
 * The cache as `cache/lru.py` implements it: a dictionary from keys to
 * nodes of a doubly linked list, plus head and tail references.
 *
 * Python objects become slots of an arena: a node is named by its index in
 * `nodes`, and a reference to a node is an `Option<nat>` (None is Python's
 * None). A new node is appended to the arena; nodes leave the dictionary
 * but never the arena. Each operation is transcribed statement by statement,
 * and a statement that would raise in Python returns `Err` with the
 * exception's class.
 */
module LinkedLru {
  import opened Wrappers

  /** The exceptions the implementation can raise. */
  datatype PyError = ValueError | KeyError | AttributeError

  /** The key and value of a `CacheNode`; both are set by its constructor
      and never reassigned. */
  datatype Node<K, V> = Node(key: K, value: V)

  /** The `prev` and `next` references of a `CacheNode`, which the list
      operations rewrite. */
  datatype Links = Links(prev: Option<nat>, next: Option<nat>)

  /** An `LRUCache` object: capacity, the node arena (payloads and links
      side by side), the `_cache` dictionary and the `_head`/`_tail`
      references. */
  datatype Linked<K, V> = Linked(
    capacity: int,
    nodes: seq<Node<K, V>>,
    links: seq<Links>,
    dict: map<K, nat>,
    head: Option<nat>,
    tail: Option<nat>)

  /** A reference is None or names a node of the arena. */
  predicate InArena<K, V>(c: Linked<K, V>, p: Option<nat>)
  {
    p.Some? ==> p.value < |c.nodes|
  }

  /** Every reference names a node (Python references never dangle), and
      the dictionary maps each key to a node carrying that key. */
  predicate Wf<K, V>(c: Linked<K, V>)
  {
    && c.capacity >= 1
    && |c.links| == |c.nodes|
    && InArena(c, c.head)
    && InArena(c, c.tail)
    && (forall i :: 0 <= i < |c.links| ==> InArena(c, c.links[i].prev) && InArena(c, c.links[i].next))
    && (forall k :: k in c.dict ==> c.dict[k] < |c.nodes| && c.nodes[c.dict[k]].key == k)
  }

  /** `node.next = p` */
  function SetNext<K, V>(c: Linked<K, V>, i: nat, p: Option<nat>): (r: Linked<K, V>)
    requires i < |c.links|
    ensures |r.links| == |c.links| && r.links[i].next == p && r.links[i].prev == c.links[i].prev
    ensures forall j :: 0 <= j < |c.links| && j != i ==> r.links[j] == c.links[j]
    ensures r.nodes == c.nodes && r.dict == c.dict && r.head == c.head && r.tail == c.tail
    ensures Wf(c) && InArena(c, p) ==> Wf(r)
  {
    c.(links := c.links[i := c.links[i].(next := p)])
  }

  /** `node.prev = p` */
  function SetPrev<K, V>(c: Linked<K, V>, i: nat, p: Option<nat>): (r: Linked<K, V>)
    requires i < |c.links|
    ensures |r.links| == |c.links| && r.links[i].prev == p && r.links[i].next == c.links[i].next
    ensures forall j :: 0 <= j < |c.links| && j != i ==> r.links[j] == c.links[j]
    ensures r.nodes == c.nodes && r.dict == c.dict && r.head == c.head && r.tail == c.tail
    ensures Wf(c) && InArena(c, p) ==> Wf(r)
  {
    c.(links := c.links[i := c.links[i].(prev := p)])
  }

  /** `LRUCache(capacity)`: a capacity below one raises ValueError. */
  function New<K, V>(capacity: int): (r: Result<Linked<K, V>, PyError>)
    ensures r.Err? <==> capacity < 1
    ensures r.Err? ==> r.error == ValueError
    ensures r.Ok? ==> Wf(r.value) && r.value.capacity == capacity && |r.value.dict| == 0
                      && r.value.head.None? && r.value.tail.None?
  {
    if capacity < 1 then Err(ValueError) else Ok(Linked(capacity, [], [], map[], None, None))
  }

  /** `_get_size()`: the number of dictionary entries — the cached keys.
      Each key has a node of its own, so a well-formed cache never counts
      more entries than its arena has nodes; the arena may have more, since
      it keeps the nodes of deleted and evicted keys. */
  function Size<K, V>(c: Linked<K, V>): (r: nat)
    ensures r == |c.dict.Keys|
    ensures Wf(c) ==> r <= |c.nodes|
  {
    KeysWithinNodes(c.dict, c.nodes);
    |c.dict|
  }

  /** A dictionary mapping each key to a node carrying that key has at most
      as many keys as there are nodes: no two keys share a node. */
  lemma {:induction false} KeysWithinNodes<K, V>(dict: map<K, nat>, nodes: seq<Node<K, V>>)
    ensures (forall k :: k in dict ==> dict[k] < |nodes| && nodes[dict[k]].key == k) ==> |dict| <= |nodes|
    decreases |nodes|
  {
    if forall k :: k in dict ==> dict[k] < |nodes| && nodes[dict[k]].key == k {
      if |nodes| == 0 {
        assert dict.Keys == {};
      } else {
        var m := |nodes| - 1;
        var x := nodes[m].key;
        var d := dict - {x};
        forall k | k in d
          ensures d[k] < m && nodes[..m][d[k]].key == k
        {
          assert dict[k] != m;
        }
        KeysWithinNodes(d, nodes[..m]);
        assert dict.Keys <= d.Keys + {x};
        SubsetCard(dict.Keys, d.Keys + {x});
      }
    }
  }

  /** Lines 110-112 of `_push`: the node points at the old head, the old
      head points back at the node, and the node becomes the head. */
  function LinkFront<K, V>(c: Linked<K, V>, n: nat): (r: Linked<K, V>)
    requires Wf(c) && n < |c.nodes| && c.head.Some?
    ensures Wf(r) && r.nodes == c.nodes
    ensures r.dict == c.dict && r.capacity == c.capacity && r.tail == c.tail
    ensures r.head == Some(n) && r.links[n].next == c.head
  {
    var h := c.head.value;
    var c1 := SetNext(c, n, Some(h));
    var c2 := SetPrev(c1, h, Some(n));
    c2.(head := Some(n))
  }

  /** Lines 116-117 of `_push`: the head's successor becomes the tail and
      its successor is cleared. */
  function TailAfterHead<K, V>(c: Linked<K, V>): (r: Linked<K, V>)
    requires Wf(c) && c.head.Some? && c.links[c.head.value].next.Some?
    ensures Wf(r) && r.nodes == c.nodes
    ensures r.dict == c.dict && r.capacity == c.capacity && r.head == c.head
    ensures r.tail == c.links[c.head.value].next && r.links[r.tail.value].next.None?
  {
    var t := c.links[c.head.value].next.value;
    SetNext(c.(tail := Some(t)), t, None)
  }

  /** `_push(node)`, as written: it links the node in front of the current
      head without first unlinking it from where it is. */
  function Push<K, V>(c: Linked<K, V>, n: nat): (r: Result<Linked<K, V>, PyError>)
    requires Wf(c) && n < |c.nodes|
    ensures r.Err? <==> Size(c) != 1 && c.head.None?
    ensures r.Err? ==> r.error == AttributeError
    ensures r.Ok? ==> && Wf(r.value) && r.value.nodes == c.nodes
                      && r.value.dict == c.dict && r.value.capacity == c.capacity
                      && r.value.head == Some(n)
  {
    var size := Size(c);
    if size == 1 then
      Ok(c.(head := Some(n)))
    else if c.head.None? then
      Err(AttributeError)
    else
      var c1 := LinkFront(c, n);
      if size == 2 then Ok(TailAfterHead(c1)) else Ok(c1)
  }

  /** `_pop()`: the tail's predecessor becomes the tail. */
  function Pop<K, V>(c: Linked<K, V>): (r: Result<Linked<K, V>, PyError>)
    requires Wf(c)
    ensures r.Err? <==> c.tail.Some? && c.links[c.tail.value].prev.None?
    ensures r.Err? ==> r.error == AttributeError
    ensures r.Ok? ==> && Wf(r.value) && r.value.nodes == c.nodes
                      && r.value.dict == c.dict && r.value.capacity == c.capacity
                      && r.value.head == c.head
                      && (r.value.tail.Some? ==> r.value.links[r.value.tail.value].next.None?)
  {
    if c.tail.None? then
      Ok(c)
    else
      var newTail := c.links[c.tail.value].prev;
      if newTail.None? then
        Err(AttributeError)
      else
        Ok(SetNext(c, newTail.value, None).(tail := newTail))
  }

  /** Lines 138-141 of `_unlink`: the neighbours of an interior node are
      linked to each other, then the node's own links are cleared. Either
      neighbour being None raises. */
  function Bypass<K, V>(c: Linked<K, V>, n: nat): (r: Result<Linked<K, V>, PyError>)
    requires Wf(c) && n < |c.nodes|
    ensures r.Err? <==> c.links[n].prev.None? || c.links[n].next.None?
    ensures r.Err? ==> r.error == AttributeError
    ensures r.Ok? ==> && Wf(r.value) && r.value.nodes == c.nodes
                      && r.value.dict == c.dict && r.value.capacity == c.capacity
                      && r.value.head == c.head && r.value.tail == c.tail
                      && r.value.links[n].next.None? && r.value.links[n].prev.None?
  {
    var pv := c.links[n].prev;
    if pv.None? then
      Err(AttributeError)
    else
      var c1 := SetNext(c, pv.value, c.links[n].next);
      var nx := c1.links[n].next;
      if nx.None? then
        Err(AttributeError)
      else
        var c2 := SetPrev(c1, nx.value, c1.links[n].prev);
        Ok(SetPrev(SetNext(c2, n, None), n, None))
  }

  /** `_unlink(node)`: take a node out of the list. The head branch moves
      the head only when there is a successor; the tail branch pops; the
      interior branch bypasses the node. */
  function Unlink<K, V>(c: Linked<K, V>, n: nat): (r: Result<Linked<K, V>, PyError>)
    requires Wf(c) && n < |c.nodes|
    ensures r.Err? ==> r.error == AttributeError && c.head != Some(n)
    ensures r.Ok? ==> && Wf(r.value) && r.value.nodes == c.nodes
                      && r.value.dict == c.dict && r.value.capacity == c.capacity
                      && (r.value.head == Some(n) ==> c.links[n].next.None? || c.links[n].next == Some(n))
                      && (c.head != Some(n) && c.tail != Some(n) ==>
                            r.value.links[n].next.None? && r.value.links[n].prev.None?)
  {
    if c.head == Some(n) then
      if c.links[n].next.Some? then
        var newHead := c.links[n].next.value;
        Ok(SetPrev(c, newHead, None).(head := Some(newHead)))
      else
        Ok(c)
    else if c.tail == Some(n) then
      Pop(c)
    else
      Bypass(c, n)
  }

  /** `del self._cache[key]`: only the dictionary changes. */
  function Forget<K, V>(c: Linked<K, V>, k: K): (r: Linked<K, V>)
    requires Wf(c)
    ensures Wf(r) && r.dict == c.dict - {k}
    ensures r.nodes == c.nodes && r.links == c.links
    ensures r.capacity == c.capacity && r.head == c.head && r.tail == c.tail
  {
    c.(dict := c.dict - {k})
  }

  /** Lines 68-70 of `put`: when the dictionary has outgrown the capacity,
      delete the tail node's key from it, then pop the tail. The key that
      goes is the one the tail node carries, whatever the list looks like,
      and the tail's predecessor becomes the tail. */
  function EvictIfFull<K, V>(c: Linked<K, V>): (r: Result<Linked<K, V>, PyError>)
    requires Wf(c)
    ensures Size(c) <= c.capacity ==> r == Ok(c)
    ensures r.Err? ==> Size(c) > c.capacity
    ensures r.Ok? ==> && Wf(r.value) && r.value.nodes == c.nodes
                      && r.value.capacity == c.capacity && r.value.head == c.head
                      && r.value.dict.Keys <= c.dict.Keys
                      && (forall x :: x in r.value.dict ==> r.value.dict[x] == c.dict[x])
                      && |c.dict.Keys - r.value.dict.Keys| <= 1
                      && (Size(c) <= c.capacity + 1 ==> Size(r.value) <= c.capacity)
    ensures r.Ok? && Size(c) > c.capacity ==>
              && c.tail.Some? && r.value.dict == c.dict - {c.nodes[c.tail.value].key}
              && r.value.tail == c.links[c.tail.value].prev
  {
    if Size(c) > c.capacity then
      if c.tail.None? then
        Err(AttributeError)
      else
        var key := c.nodes[c.tail.value].key;
        if key !in c.dict then
          Err(KeyError)
        else
          assert c.dict.Keys - (c.dict - {key}).Keys == {key};
          Pop(Forget(c, key))
    else
      Ok(c)
  }

  /** Lines 60-64 of `put`: the node already stored under `k`, or a fresh
      node (appended to the arena) entered into the dictionary. */
  function Admit<K, V>(c: Linked<K, V>, k: K, v: V): (r: (Linked<K, V>, nat))
    requires Wf(c)
    ensures Wf(r.0) && r.1 < |r.0.nodes| && r.0.dict == c.dict[k := r.1]
    ensures r.0.capacity == c.capacity && r.0.head == c.head && r.0.tail == c.tail
    ensures k in c.dict ==> r.0 == c && r.1 == c.dict[k]
    ensures k !in c.dict ==> && r.1 == |c.nodes| && r.0.nodes == c.nodes + [Node(k, v)]
                             && r.0.links == c.links + [Links(None, None)]
  {
    if k in c.dict then
      (c, c.dict[k])
    else
      var n := |c.nodes|;
      (c.(nodes := c.nodes + [Node(k, v)], links := c.links + [Links(None, None)], dict := c.dict[k := n]), n)
  }

  /** `get(key)`, as written: a hit pushes the node and returns its value;
      a miss returns None and changes nothing. */
  function Get<K, V>(c: Linked<K, V>, k: K): (r: Result<(Option<V>, Linked<K, V>), PyError>)
    requires Wf(c)
    ensures k !in c.dict ==> r == Ok((None, c))
    ensures r.Err? <==> k in c.dict && Size(c) != 1 && c.head.None?
    ensures r.Ok? && k in c.dict ==> && r.value.0 == Some(c.nodes[c.dict[k]].value)
                                     && Wf(r.value.1) && r.value.1.nodes == c.nodes
                                     && r.value.1.dict == c.dict && r.value.1.capacity == c.capacity
                                     && r.value.1.head == Some(c.dict[k])
  {
    if k in c.dict then
      var n := c.dict[k];
      var c1 :- Push(c, n);
      Ok((Some(c1.nodes[n].value), c1))
    else
      Ok((None, c))
  }

  /** `put(key, value)`, as written. A key already present keeps the value
      of its node: only recency was meant to change. */
  function Put<K, V>(c: Linked<K, V>, k: K, v: V): (r: Result<Linked<K, V>, PyError>)
    requires Wf(c)
    ensures r.Ok? ==> Wf(r.value) && r.value.capacity == c.capacity
  {
    var (c1, n) := Admit(c, k, v);
    var c2 :- Push(c1, n);
    EvictIfFull(c2)
  }

  /** Whatever the state of the list, a put that does not raise gains no
      key but its own and loses at most one (the evicted one). */
  lemma PutKeys<K, V>(c: Linked<K, V>, k: K, v: V)
    requires Wf(c) && Put(c, k, v).Ok?
    ensures var r := Put(c, k, v).value;
            r.dict.Keys <= c.dict.Keys + {k} && |c.dict.Keys - r.dict.Keys| <= 1
  {
    var a := Admit(c, k, v);
    var pushed := Push(a.0, a.1);
    assert pushed.Ok? && Put(c, k, v) == EvictIfFull(pushed.value);
    AdmitAddsKey(c, k, v);
    var before, after := pushed.value.dict.Keys, Put(c, k, v).value.dict.Keys;
    assert after <= before && |before - after| <= 1;
    LosesAtMostOne(c.dict.Keys, k, before, after);
  }

  /** Admitting `k` adds exactly `k` to the cached keys. */
  lemma AdmitAddsKey<K, V>(c: Linked<K, V>, k: K, v: V)
    requires Wf(c)
    ensures Admit(c, k, v).0.dict.Keys == c.dict.Keys + {k}
  {
    var a := Admit(c, k, v);
    assert a.0.dict == c.dict[k := a.1];
  }

  /** A put that does not raise keeps a cache within capacity within it,
      and a put of a key already present changes neither the dictionary nor
      any payload. */
  lemma PutSize<K, V>(c: Linked<K, V>, k: K, v: V)
    requires Wf(c) && Put(c, k, v).Ok? && Size(c) <= c.capacity
    ensures Size(Put(c, k, v).value) <= c.capacity
    ensures k in c.dict ==> Put(c, k, v).value.dict == c.dict && Put(c, k, v).value.nodes == c.nodes
  {
    var a := Admit(c, k, v);
    var pushed := Push(a.0, a.1);
    assert pushed.Ok? && Put(c, k, v) == EvictIfFull(pushed.value);
    if k in c.dict {
      assert EvictIfFull(pushed.value) == pushed;
    }
  }

  /** A set grown by one element and then shrunk by at most one has lost
      at most one of its first elements. */
  lemma LosesAtMostOne<K>(before: set<K>, k: K, mid: set<K>, after: set<K>)
    requires mid == before + {k} && after <= mid && |mid - after| <= 1
    ensures after <= before + {k} && |before - after| <= 1
  {
    SubsetCard(before - after, mid - after);
  }

  lemma {:induction false} SubsetCard<K>(a: set<K>, b: set<K>)
    requires a <= b
    ensures |a| <= |b|
    decreases |b|
  {
    if a != {} {
      var x :| x in a;
      SubsetCard(a - {x}, b - {x});
    }
  }

  /** `delete(key)`: unlink the key's node, then drop the key; an absent
      key is a no-op. */
  function Delete<K, V>(c: Linked<K, V>, k: K): (r: Result<Linked<K, V>, PyError>)
    requires Wf(c)
    ensures k !in c.dict ==> r == Ok(c)
    ensures r.Ok? ==> && Wf(r.value) && r.value.dict == c.dict - {k}
                      && r.value.capacity == c.capacity && r.value.nodes == c.nodes
  {
    if k in c.dict then
      var c1 :- Unlink(c, c.dict[k]);
      Ok(Forget(c1, k))
    else
      Ok(c)
  }

  /** `reset()`: empty the dictionary and forget head and tail. */
  function Reset<K, V>(c: Linked<K, V>): (r: Linked<K, V>)
    requires Wf(c)
    ensures Wf(r) && Size(r) == 0 && r.head.None? && r.tail.None? && r.capacity == c.capacity
  {
    c.(dict := map[], head := None, tail := None)
  }

  /** Resetting twice is resetting once. */
  lemma ResetTwice<K, V>(c: Linked<K, V>)
    requires Wf(c)
    ensures Reset(Reset(c)) == Reset(c)
  {
  }

  /** The corrected move to the front: a node that is not already the head
      is unlinked and cleared before `_push` relinks it. */
  function MoveToFront<K, V>(c: Linked<K, V>, n: nat): (r: Result<Linked<K, V>, PyError>)
    requires Wf(c) && n < |c.nodes|
    ensures r.Ok? ==> && Wf(r.value) && r.value.nodes == c.nodes
                      && r.value.dict == c.dict && r.value.capacity == c.capacity
                      && r.value.head == Some(n)
  {
    if c.head == Some(n) then
      Ok(c)
    else
      var c1 :- Unlink(c, n);
      Push(SetPrev(SetNext(c1, n, None), n, None), n)
  }

  /** `get` with the corrected move to the front. */
  function GetFixed<K, V>(c: Linked<K, V>, k: K): (r: Result<(Option<V>, Linked<K, V>), PyError>)
    requires Wf(c)
    ensures k !in c.dict ==> r == Ok((None, c))
    ensures r.Ok? && k in c.dict ==> && r.value.0 == Some(c.nodes[c.dict[k]].value)
                                     && Wf(r.value.1) && r.value.1.nodes == c.nodes
                                     && r.value.1.dict == c.dict && r.value.1.capacity == c.capacity
  {
    if k in c.dict then
      var n := c.dict[k];
      var c1 :- MoveToFront(c, n);
      Ok((Some(c1.nodes[n].value), c1))
    else
      Ok((None, c))
  }

  /** `put` with the corrected move to the front for a key already
      present. */
  function PutFixed<K, V>(c: Linked<K, V>, k: K, v: V): (r: Result<Linked<K, V>, PyError>)
    requires Wf(c)
    ensures r.Ok? ==> Wf(r.value) && r.value.capacity == c.capacity
  {
    var (c1, n) := Admit(c, k, v);
    var c2 :- if k in c.dict then MoveToFront(c1, n) else Push(c1, n);
    EvictIfFull(c2)
  }
}

=== FILE: lru_cache.dfy ===
/** The LRU cache of cache/lru.py as an immutable record: the recency list is
    a sequence of keys (most recently used first) and the entry store is a
    map.  Every operation is a pure function from state to state. */
module LruCache {
  import opened Wrappers
  import opened Recency

  /** The one error the cache raises: construction with capacity below one
      (Python's ValueError). */
  datatype CapacityError = InvalidCapacity(given: int)

  /** `order` is the recency list, head (most recent) first; `store` maps
      each cached key to its value. */
  datatype Cache<K, V> = Cache(capacity: int, order: seq<K>, store: map<K, V>)

  /** The invariant every public operation keeps: positive capacity, each
      key once in the list, list and store holding the same keys, and never
      more entries than the capacity. */
  predicate Valid<K(==), V>(c: Cache<K, V>) {
    && c.capacity >= 1
    && Distinct(c.order)
    && c.store.Keys == Elems(c.order)
    && |c.order| <= c.capacity
  }

  /** The least recently used key. */
  function Last<K>(s: seq<K>): K
    requires |s| > 0
  {
    s[|s| - 1]
  }

  /** `LRUCache(capacity)`: fails exactly when the capacity is below one,
      otherwise an empty cache. */
  function New<K(==), V>(capacity: int): (r: Result<Cache<K, V>, CapacityError>)
    ensures r.Err? <==> capacity < 1
    ensures r.Err? ==> r.error == InvalidCapacity(capacity)
    ensures r.Ok? ==> Valid(r.value) && r.value.capacity == capacity
    ensures r.Ok? ==> |r.value.order| == 0 && |r.value.store| == 0
  {
    if capacity < 1 then Err(InvalidCapacity(capacity))
    else Ok(Cache(capacity, [], map[]))
  }

  /** `_get_size`: the number of entries in the store, which is also the
      length of the recency list. */
  function Size<K(==), V>(c: Cache<K, V>): (n: nat)
    requires Valid(c)
    ensures n == |c.order| && n <= c.capacity
  {
    DistinctCard(c.order);
    |c.store|
  }

  /** `get`: a hit returns the stored value and makes the key the most
      recent; a miss returns None and changes nothing. */
  function Get<K(==), V>(c: Cache<K, V>, k: K): (r: (Option<V>, Cache<K, V>))
    requires Valid(c)
    ensures Valid(r.1) && r.1.capacity == c.capacity
    ensures r.0.Some? <==> k in c.store
    ensures k in c.store ==> r.0 == Some(c.store[k]) && r.1.store == c.store
    ensures k in c.store ==> |r.1.order| > 0 && r.1.order[0] == k
    ensures k in c.store ==> Remove(r.1.order, k) == Remove(c.order, k)
    ensures k !in c.store ==> r.1 == c
  {
    if k in c.store then
      (Some(c.store[k]), c.(order := Promote(c.order, k)))
    else
      (None, c)
  }

  /** `put`: a new key is stored with `v`; a key already present keeps the
      value it was first stored with.  Either way the key becomes the most
      recent.  When a new key would exceed the capacity, the least recently
      used key is evicted. */
  function Put<K(==), V>(c: Cache<K, V>, k: K, v: V): (r: Cache<K, V>)
    requires Valid(c)
    ensures Valid(r) && r.capacity == c.capacity
    ensures |r.order| > 0 && r.order[0] == k && k in r.store
  {
    var pushed := c.(order := Promote(c.order, k),
                     store := if k in c.store then c.store else c.store[k := v]);
    if |pushed.order| > c.capacity then
      EvictTail(pushed)
    else
      pushed
  }

  /** Lines 69-70: the least recently used entry leaves both the store and
      the list. */
  function EvictTail<K(==), V>(c: Cache<K, V>): (r: Cache<K, V>)
    requires |c.order| > 0 && Distinct(c.order) && c.store.Keys == Elems(c.order)
    ensures r.order == c.order[..|c.order| - 1] && r.store == c.store - {Last(c.order)}
    ensures Distinct(r.order) && r.store.Keys == Elems(r.order)
  {
    var kept := c.order[..|c.order| - 1];
    var last := Last(c.order);
    DistinctSlice(c.order, 0, |c.order| - 1);
    assert c.order == kept + [last];
    ElemsConcat(kept, [last]);
    assert Elems([last]) == {last};
    forall j | 0 <= j < |kept|
      ensures kept[j] != last
    {
      assert kept[j] == c.order[j];
    }
    ElemsMember(kept, last);
    c.(order := kept, store := c.store - {last})
  }

  /** `delete`: a present key leaves both the store and the list, the other
      keys keeping their relative order; an absent key changes nothing. */
  function Delete<K(==), V>(c: Cache<K, V>, k: K): (r: Cache<K, V>)
    requires Valid(c)
    ensures Valid(r) && r.capacity == c.capacity
    ensures r.store == c.store - {k}
    ensures k in c.store ==> |r.order| == |c.order| - 1
    ensures forall i :: 0 <= i < |c.order| && c.order[i] == k ==>
              r.order == c.order[..i] + c.order[i + 1..]
    ensures k !in c.store ==> r == c
  {
    if k in c.store then
      forall i | 0 <= i < |c.order| && c.order[i] == k
        ensures Remove(c.order, k) == c.order[..i] + c.order[i + 1..]
      {
        RemoveAt(c.order, i);
      }
      c.(order := Remove(c.order, k), store := c.store - {k})
    else
      forall i | 0 <= i < |c.order|
        ensures c.order[i] != k
      {
        ElemsIndex(c.order, i);
      }
      assert c.store - {k} == c.store;
      c
  }

  /** `reset`: drop every entry; the capacity stays, so the cache is the
      one a constructor call with that capacity makes. */
  function Reset<K(==), V>(c: Cache<K, V>): (r: Cache<K, V>)
    requires Valid(c)
    ensures Valid(r) && Size(r) == 0 && New<K, V>(c.capacity) == Ok(r)
  {
    c.(order := [], store := map[])
  }

  /** Put each key with its value in turn (the tests' fill loops). */
  function PutAll<K(==), V>(c: Cache<K, V>, ks: seq<K>, vs: seq<V>): (r: Cache<K, V>)
    requires Valid(c) && |ks| == |vs|
    ensures Valid(r) && r.capacity == c.capacity
    decreases |ks|
  {
    if |ks| == 0 then c else PutAll(Put(c, ks[0], vs[0]), ks[1..], vs[1..])
  }

  /** Get each key in turn, collecting the answers. */
  function GetAll<K(==), V>(c: Cache<K, V>, ks: seq<K>): (r: seq<Option<V>>)
    requires Valid(c)
    ensures |r| == |ks|
    decreases |ks|
  {
    if |ks| == 0 then []
    else
      var (answer, next) := Get(c, ks[0]);
      [answer] + GetAll(next, ks[1..])
  }
}

=== FILE: lru_properties.dfy ===
/** Properties of the LRU cache that relate several operations or state what
    one call does in each of its cases. */
module LruProperties {
  import opened Wrappers
  import opened Recency
  import opened LruCache

  /** Re-putting a present key keeps its first value and the size; only its
      recency changes. */
  lemma PutPresent<K, V>(c: Cache<K, V>, k: K, v: V)
    requires Valid(c) && k in c.store
    ensures Put(c, k, v).store == c.store
    ensures Size(Put(c, k, v)) == Size(c)
    ensures Remove(Put(c, k, v).order, k) == Remove(c.order, k)
  {
  }

  /** Putting a new key while there is room evicts nothing: the other keys
      keep their values and their order behind the new key. */
  lemma PutFreshRoom<K, V>(c: Cache<K, V>, k: K, v: V)
    requires Valid(c) && k !in c.store && |c.order| < c.capacity
    ensures Put(c, k, v).store == c.store[k := v]
    ensures Put(c, k, v).order == [k] + c.order
  {
  }

  /** Putting a new key into a full cache evicts exactly the least recently
      used key; every other key stays, with its value and its order. */
  lemma PutFreshFull<K, V>(c: Cache<K, V>, k: K, v: V)
    requires Valid(c) && k !in c.store && |c.order| == c.capacity
    ensures Put(c, k, v).store == (c.store - {Last(c.order)})[k := v]
    ensures Put(c, k, v).order == [k] + c.order[..|c.order| - 1]
  {
    var pushed := Cache(c.capacity, [k] + c.order, c.store[k := v]);
    PutIsPushThenEvict(c, k, v);
    assert ([k] + c.order)[..|c.order|] == [k] + c.order[..|c.order| - 1];
    assert Put(c, k, v).order == [k] + c.order[..|c.order| - 1];
    assert Last(c.order) != k by {
      ElemsIndex(c.order, |c.order| - 1);
    }
    assert c.store[k := v] - {Last(c.order)} == (c.store - {Last(c.order)})[k := v];
  }

  /** In a full cache, putting a new key is pushing it at the head and then
      evicting the tail. */
  lemma PutIsPushThenEvict<K, V>(c: Cache<K, V>, k: K, v: V)
    requires Valid(c) && k !in c.store && |c.order| == c.capacity
    ensures Put(c, k, v) == EvictTail(Cache(c.capacity, [k] + c.order, c.store[k := v]))
  {
    assert Promote(c.order, k) == [k] + c.order;
  }

  /** Each put evicts at most one key, and only the least recently used
      one. */
  lemma PutEvictsAtMostOne<K, V>(c: Cache<K, V>, k: K, v: V)
    requires Valid(c)
    ensures forall x :: x in c.store && x !in Put(c, k, v).store ==>
              |c.order| == c.capacity && x == Last(c.order)
  {
    if k in c.store {
      PutPresent(c, k, v);
    } else if |c.order| < c.capacity {
      PutFreshRoom(c, k, v);
    } else {
      PutFreshFull(c, k, v);
    }
  }

  /** A put adds no key but its own. */
  lemma PutGainsOnlyItsKey<K, V>(c: Cache<K, V>, k: K, v: V)
    requires Valid(c)
    ensures Put(c, k, v).store.Keys <= c.store.Keys + {k}
  {
    if k in c.store {
      PutPresent(c, k, v);
    } else if |c.order| < c.capacity {
      PutFreshRoom(c, k, v);
    } else {
      PutFreshFull(c, k, v);
    }
  }

  /** A get right after a put of the same key hits, with the value the key
      was first stored with. */
  lemma GetAfterPut<K, V>(c: Cache<K, V>, k: K, v: V)
    requires Valid(c)
    ensures Get(Put(c, k, v), k).0 == Some(if k in c.store then c.store[k] else v)
  {
    if k in c.store {
      PutPresent(c, k, v);
    } else if |c.order| < c.capacity {
      PutFreshRoom(c, k, v);
    } else {
      PutFreshFull(c, k, v);
    }
  }

  /** After a delete the key misses; a present key lowers the size by one;
      deleting twice is deleting once. */
  lemma GetAfterDelete<K, V>(c: Cache<K, V>, k: K)
    requires Valid(c)
    ensures Get(Delete(c, k), k).0 == None
    ensures k in c.store ==> Size(Delete(c, k)) == Size(c) - 1
    ensures k !in c.store ==> Size(Delete(c, k)) == Size(c)
    ensures Delete(Delete(c, k), k) == Delete(c, k)
  {
  }

  /** Resetting twice is resetting once: the second reset finds the
      just-constructed cache and leaves it as it is. */
  lemma ResetTwice<K, V>(c: Cache<K, V>)
    requires Valid(c)
    ensures Reset(Reset(c)) == Reset(c)
  {
  }

  /** Putting distinct new keys while there is room stacks them at the head,
      most recently put first; nothing is evicted. */
  lemma {:induction false} PutAllFreshOrder<K, V>(c: Cache<K, V>, ks: seq<K>, vs: seq<V>)
    requires Valid(c) && |ks| == |vs| && Distinct(ks)
    requires Elems(ks) !! c.store.Keys
    requires |c.order| + |ks| <= c.capacity
    ensures PutAll(c, ks, vs).order == Reverse(ks) + c.order
    decreases |ks|
  {
    if |ks| > 0 {
      var r := Reverse(ks[1..]);
      assert r + ([ks[0]] + c.order) == (r + [ks[0]]) + c.order;
      var c1 := Put(c, ks[0], vs[0]);
      assert c1.order == [ks[0]] + c.order && Distinct(ks[1..])
             && Elems(ks[1..]) !! c1.store.Keys by {
        PutFreshRoom(c, ks[0], vs[0]);
        DistinctCons(ks[0], ks[1..]);
        assert [ks[0]] + ks[1..] == ks;
      }
      PutAllFreshOrder(c1, ks[1..], vs[1..]);
      calc {
        PutAll(c, ks, vs).order;
        PutAll(c1, ks[1..], vs[1..]).order;
        Reverse(ks[1..]) + ([ks[0]] + c.order);
        (Reverse(ks[1..]) + [ks[0]]) + c.order;
        { assert Reverse(ks) == Reverse(ks[1..]) + [ks[0]]; }
        Reverse(ks) + c.order;
      }
    }
  }

  /** Putting distinct new keys while there is room stores each with its
      value and keeps every earlier entry with its value. */
  lemma {:induction false} PutAllFreshStore<K, V>(c: Cache<K, V>, ks: seq<K>, vs: seq<V>)
    requires Valid(c) && |ks| == |vs| && Distinct(ks)
    requires Elems(ks) !! c.store.Keys
    requires |c.order| + |ks| <= c.capacity
    ensures forall i :: 0 <= i < |ks| ==>
              ks[i] in PutAll(c, ks, vs).store && PutAll(c, ks, vs).store[ks[i]] == vs[i]
    ensures forall x :: x in c.store ==>
              x in PutAll(c, ks, vs).store && PutAll(c, ks, vs).store[x] == c.store[x]
    decreases |ks|
  {
    if |ks| > 0 {
      var c1 := Put(c, ks[0], vs[0]);
      PutFreshRoom(c, ks[0], vs[0]);
      DistinctCons(ks[0], ks[1..]);
      assert [ks[0]] + ks[1..] == ks;
      PutAllFreshStore(c1, ks[1..], vs[1..]);
      var r := PutAll(c1, ks[1..], vs[1..]);
      assert PutAll(c, ks, vs) == r;
      forall i | 0 <= i < |ks|
        ensures ks[i] in r.store && r.store[ks[i]] == vs[i]
      {
        if i > 0 {
          assert ks[1..][i - 1] == ks[i] && vs[1..][i - 1] == vs[i];
        }
      }
    }
  }

  /** Getting keys that are all present answers each with its stored value,
      in turn: a get never changes a stored value. */
  lemma {:induction false} GetAllPresent<K, V>(c: Cache<K, V>, ks: seq<K>)
    requires Valid(c)
    requires forall i :: 0 <= i < |ks| ==> ks[i] in c.store
    ensures forall i :: 0 <= i < |ks| ==> GetAll(c, ks)[i] == Some(c.store[ks[i]])
    decreases |ks|
  {
    if |ks| > 0 {
      var next := Get(c, ks[0]).1;
      assert forall i :: 0 <= i < |ks[1..]| ==> ks[1..][i] == ks[i + 1];
      GetAllPresent(next, ks[1..]);
    }
  }

  /** Filling an empty cache with `capacity` distinct keys and then getting
      each of them returns the value put for it (lru_cache_tests.py,
      test_it_gets_the_values). */
  lemma FillThenGet<K, V>(capacity: int, ks: seq<K>, vs: seq<V>)
    requires capacity >= 1 && |ks| == |vs| == capacity && Distinct(ks)
    ensures New<K, V>(capacity).Ok?
    ensures forall i :: 0 <= i < |ks| ==>
              GetAll(PutAll(New<K, V>(capacity).value, ks, vs), ks)[i] == Some(vs[i])
  {
    var c := New<K, V>(capacity).value;
    PutAllFreshStore(c, ks, vs);
    GetAllPresent(PutAll(c, ks, vs), ks);
  }

  /** Filling an empty cache with `capacity` distinct keys and putting one
      more evicts exactly the first key put; every other key stays
      (lru_cache_tests.py, test_it_pops_least_recently_used_cache). */
  lemma FillThenEvictFirst<K, V>(capacity: int, ks: seq<K>, vs: seq<V>, k: K, v: V)
    requires capacity >= 1 && |ks| == |vs| == capacity && Distinct(ks) && k !in Elems(ks)
    ensures New<K, V>(capacity).Ok?
    ensures var r := Put(PutAll(New<K, V>(capacity).value, ks, vs), k, v);
            && ks[0] !in r.store
            && Get(r, ks[0]).0 == None
            && (forall i :: 1 <= i < |ks| ==> ks[i] in r.store && r.store[ks[i]] == vs[i])
            && k in r.store && r.store[k] == v
  {
    var c := New<K, V>(capacity).value;
    PutAllFreshOrder(c, ks, vs);
    PutAllFreshStore(c, ks, vs);
    EvictFirstOfFull(PutAll(c, ks, vs), ks, vs, k, v);
  }

  /** A full cache whose recency list is `ks` reversed loses `ks[0]` when a
      new key is put. */
  lemma EvictFirstOfFull<K, V>(full: Cache<K, V>, ks: seq<K>, vs: seq<V>, k: K, v: V)
    requires Valid(full) && |ks| == |vs| == full.capacity && Distinct(ks) && k !in Elems(ks)
    requires full.order == Reverse(ks)
    requires forall i :: 0 <= i < |ks| ==> ks[i] in full.store && full.store[ks[i]] == vs[i]
    ensures var r := Put(full, k, v);
            && ks[0] !in r.store
            && Get(r, ks[0]).0 == None
            && (forall i :: 1 <= i < |ks| ==> ks[i] in r.store && r.store[ks[i]] == vs[i])
            && k in r.store && r.store[k] == v
  {
    assert Last(full.order) == ks[0];
    assert k !in full.store by {
      ReverseElems(ks);
    }
    PutFreshFull(full, k, v);
    var r := Put(full, k, v);
    assert r.store == (full.store - {ks[0]})[k := v];
    forall i | 1 <= i < |ks|
      ensures ks[i] in r.store && r.store[ks[i]] == vs[i]
    {
      assert ks[i] != ks[0];
    }
  }
}

=== FILE: recency.dfy ===
/** Sequences of distinct keys, used as recency lists (most recent first). */
module Recency {

  /** No element occurs twice. */
  predicate Distinct<T(==)>(s: seq<T>) {
    forall i, j :: 0 <= i < j < |s| ==> s[i] != s[j]
  }

  /** The set of elements of a sequence, collected front to back. */
  function Elems<T>(s: seq<T>): set<T> {
    if |s| == 0 then {} else {s[0]} + Elems(s[1..])
  }

  /** `Elems` holds exactly the elements of the sequence. */
  lemma {:induction false} ElemsMember<T>(s: seq<T>, x: T)
    ensures x in Elems(s) <==> x in s
  {
    if |s| > 0 {
      ElemsMember(s[1..], x);
      assert s == [s[0]] + s[1..];
    }
  }

  /** The element at any index is among the elements. */
  lemma ElemsIndex<T>(s: seq<T>, i: nat)
    requires i < |s|
    ensures s[i] in Elems(s)
  {
    ElemsMember(s, s[i]);
  }

  /** The elements of a sequence with one element in front. */
  lemma ElemsCons<T>(x: T, s: seq<T>)
    ensures Elems([x] + s) == {x} + Elems(s)
  {
    assert ([x] + s)[1..] == s;
  }

  /** The elements of a concatenation. */
  lemma {:induction false} ElemsConcat<T>(a: seq<T>, b: seq<T>)
    ensures Elems(a + b) == Elems(a) + Elems(b)
  {
    if |a| > 0 {
      assert (a + b)[1..] == a[1..] + b;
      ElemsConcat(a[1..], b);
    } else {
      assert a + b == b;
    }
  }

  /** Prepending keeps a sequence free of duplicates exactly when the new
      element is not already there. */
  lemma DistinctCons<T>(x: T, s: seq<T>)
    ensures Distinct([x] + s) <==> x !in Elems(s) && Distinct(s)
  {
    var t := [x] + s;
    assert forall i :: 0 <= i < |s| ==> t[i + 1] == s[i];
    ElemsMember(s, x);
    if Distinct(t) {
      forall i, j | 0 <= i < j < |s|
        ensures s[i] != s[j]
      {
        assert t[i + 1] != t[j + 1];
      }
      forall j | 0 <= j < |s|
        ensures s[j] != x
      {
        assert t[0] != t[j + 1];
      }
    }
    if x !in s && Distinct(s) {
      forall i, j | 0 <= i < j < |t|
        ensures t[i] != t[j]
      {
        if i > 0 {
          assert t[i] == s[i - 1] && t[j] == s[j - 1];
        } else {
          assert t[j] == s[j - 1];
        }
      }
    }
  }

  /** Cutting a piece out of a sequence keeps it free of duplicates. */
  lemma DistinctSlice<T>(s: seq<T>, lo: nat, hi: nat)
    requires lo <= hi <= |s|
    requires Distinct(s)
    ensures Distinct(s[lo..hi])
  {
    forall i, j | 0 <= i < j < hi - lo
      ensures s[lo..hi][i] != s[lo..hi][j]
    {
      assert s[lo..hi][i] == s[lo + i];
      assert s[lo..hi][j] == s[lo + j];
    }
  }

  /** A duplicate-free sequence has as many elements as its length. */
  lemma {:induction false} DistinctCard<T>(s: seq<T>)
    requires Distinct(s)
    ensures |Elems(s)| == |s|
  {
    if |s| > 0 {
      DistinctCons(s[0], s[1..]);
      assert [s[0]] + s[1..] == s;
      DistinctCard(s[1..]);
    }
  }

  /** `s` with position `i` cut out; the elements before it keep their
      index and those after it move down by one. */
  function Cut<T>(s: seq<T>, i: nat): (r: seq<T>)
    requires i < |s|
    ensures |r| == |s| - 1
    ensures forall j :: 0 <= j < i ==> r[j] == s[j]
    ensures forall j :: i <= j < |r| ==> r[j] == s[j + 1]
  {
    s[..i] + s[i + 1..]
  }

  /** Cutting a position out of a duplicate-free sequence leaves it
      duplicate-free and without the element that was there. */
  lemma CutDistinct<T>(s: seq<T>, i: nat)
    requires Distinct(s) && i < |s|
    ensures Distinct(Cut(s, i))
    ensures forall j :: 0 <= j < |Cut(s, i)| ==> Cut(s, i)[j] != s[i]
  {
    var r := Cut(s, i);
    forall a, b | 0 <= a < b < |r|
      ensures r[a] != r[b]
    {
      var a' := if a < i then a else a + 1;
      var b' := if b < i then b else b + 1;
      assert r[a] == s[a'] && r[b] == s[b'];
    }
    forall j | 0 <= j < |r|
      ensures r[j] != s[i]
    {
      var j' := if j < i then j else j + 1;
      assert r[j] == s[j'];
    }
  }

  /** `s` with every occurrence of `x` taken out, the rest in their order. */
  function Remove<T(==)>(s: seq<T>, x: T): (r: seq<T>)
    ensures Elems(r) == Elems(s) - {x}
    ensures x !in Elems(s) ==> r == s
    ensures Distinct(s) ==> Distinct(r)
    ensures Distinct(s) && x in Elems(s) ==> |r| == |s| - 1
  {
    if |s| == 0 then []
    else
      var rest := Remove(s[1..], x);
      DistinctCons(s[0], s[1..]);
      assert [s[0]] + s[1..] == s;
      if s[0] == x then rest
      else
        DistinctCons(s[0], rest);
        ElemsCons(s[0], rest);
        [s[0]] + rest
  }

  /** In a duplicate-free sequence, removing the element at index `i` is
      cutting position `i` out: everything else keeps its place. */
  lemma {:induction false} RemoveAt<T>(s: seq<T>, i: nat)
    requires Distinct(s)
    requires i < |s|
    ensures Remove(s, s[i]) == s[..i] + s[i + 1..]
  {
    if i == 0 {
      DistinctCons(s[0], s[1..]);
      assert [s[0]] + s[1..] == s;
    } else {
      var x := s[i];
      DistinctSlice(s, 1, |s|);
      assert s[1..][i - 1] == x && s[0] != x;
      calc {
        Remove(s, x);
        [s[0]] + Remove(s[1..], x);
        { RemoveAt(s[1..], i - 1); }
        [s[0]] + (s[1..][..i - 1] + s[1..][i..]);
        { assert s[1..][..i - 1] == s[1..i] && s[1..][i..] == s[i + 1..]; }
        [s[0]] + (s[1..i] + s[i + 1..]);
        { assert [s[0]] + s[1..i] == s[..i]; }
        s[..i] + s[i + 1..];
      }
    }
  }

  /** `x` moved (or added) to the front; the other elements keep their order. */
  function Promote<T(==)>(s: seq<T>, x: T): (r: seq<T>)
    ensures |r| > 0 && r[0] == x
    ensures Elems(r) == Elems(s) + {x}
    ensures Remove(r, x) == Remove(s, x)
    ensures Distinct(s) ==> Distinct(r)
    ensures Distinct(s) ==> |r| == if x in Elems(s) then |s| else |s| + 1
  {
    var rest := Remove(s, x);
    DistinctCons(x, rest);
    ElemsCons(x, rest);
    assert ([x] + rest)[1..] == rest;
    [x] + rest
  }

  /** The sequence read back to front. */
  function Reverse<T>(s: seq<T>): (r: seq<T>)
    ensures |r| == |s|
    ensures forall i :: 0 <= i < |s| ==> r[i] == s[|s| - 1 - i]
  {
    if |s| == 0 then [] else Reverse(s[1..]) + [s[0]]
  }

  /** Reversal keeps the elements. */
  lemma {:induction false} ReverseElems<T>(s: seq<T>)
    ensures Elems(Reverse(s)) == Elems(s)
  {
    if |s| > 0 {
      ReverseElems(s[1..]);
      ElemsConcat(Reverse(s[1..]), [s[0]]);
      ElemsCons(s[0], s[1..]);
      assert [s[0]] + s[1..] == s;
      assert Elems([s[0]]) == {s[0]};
    }
  }

  /** Reversal keeps a sequence free of duplicates. */
  lemma ReverseDistinct<T>(s: seq<T>)
    requires Distinct(s)
    ensures Distinct(Reverse(s))
  {
    var r := Reverse(s);
    forall i, j | 0 <= i < j < |r| ensures r[i] != r[j] {
      assert r[i] == s[|s| - 1 - i] && r[j] == s[|s| - 1 - j];
    }
  }
}

=== FILE: refinement.dfy ===
/**
 * The linked implementation against the abstract cache: `Repr(c, a, ids)`
 * says that the linked cache `c`, whose list runs through the nodes `ids`,
 * stands for the abstract cache `a` — the list holds the keys in recency
 * order, and the dictionary maps each key to its node, which holds the
 * key's value.
 */
module Refinement {
  import opened Wrappers
  import opened Recency
  import opened LinkedLru
  import opened ListChain
  import LruCache
  import LruProperties

  ghost predicate Repr<K, V>(c: Linked<K, V>, a: LruCache.Cache<K, V>, ids: seq<nat>)
  {
    && Wf(c) && LruCache.Valid(a) && Chain(c, ids)
    && c.capacity == a.capacity
    && |ids| == |a.order|
    && c.dict.Keys == a.store.Keys
    && (forall i :: 0 <= i < |ids| ==> a.order[i] in c.dict && c.dict[a.order[i]] == ids[i])
    && (forall x :: x in c.dict ==> c.nodes[c.dict[x]].value == a.store[x])
  }

  /** The list holds the keys in recency order. */
  lemma ReprKeys<K, V>(c: Linked<K, V>, a: LruCache.Cache<K, V>, ids: seq<nat>)
    requires Repr(c, a, ids)
    ensures forall i :: 0 <= i < |ids| ==> c.nodes[ids[i]].key == a.order[i]
    ensures Size(c) == |ids|
  {
    forall i | 0 <= i < |ids|
      ensures c.nodes[ids[i]].key == a.order[i]
    {
      assert a.order[i] in c.dict;
    }
    assert |c.dict| == |a.store| by {
      assert c.dict.Keys == a.store.Keys;
    }
    DistinctCard(a.order);
  }

  /** Construction: both fail for the same capacities, and otherwise the
      empty linked cache stands for the empty cache. */
  lemma NewRefines<K, V>(capacity: int)
    ensures LinkedLru.New<K, V>(capacity).Ok? <==> LruCache.New<K, V>(capacity).Ok?
    ensures LinkedLru.New<K, V>(capacity).Ok? ==>
              Repr(LinkedLru.New<K, V>(capacity).value, LruCache.New<K, V>(capacity).value, [])
  {
  }

  /** The dictionary and the node payloads still match the abstract cache
      after a new key is put in front of the first `keep` keys: the
      map-and-sequence core of a fresh `put`. The new dictionary and store
      are given pointwise: the new key maps to the new node and its value,
      the kept keys keep their nodes, and every other entry is an old one. */
  lemma FreshPutMatch<K, V>(
    dict: map<K, nat>, nodes: seq<Node<K, V>>, order: seq<K>, store: map<K, V>, ids: seq<nat>,
    k: K, v: V, keep: nat, dict': map<K, nat>, store': map<K, V>)
    requires |ids| == |order| && keep <= |order| && k !in store
    requires forall i :: 0 <= i < |ids| ==> order[i] in dict && dict[order[i]] == ids[i]
    requires dict.Keys == store.Keys
    requires forall x :: x in dict ==> dict[x] < |nodes| && nodes[dict[x]].value == store[x]
    requires k in dict' && dict'[k] == |nodes| && k in store' && store'[k] == v
    requires forall i :: 0 <= i < keep ==> order[i] in dict' && dict'[order[i]] == dict[order[i]]
    requires forall x :: x in dict' <==> x in store'
    requires forall x :: x in dict' && x != k ==> x in dict && dict'[x] == dict[x] && store'[x] == store[x]
    ensures var order', ids' := [k] + order[..keep], [|nodes|] + ids[..keep];
            forall i :: 0 <= i < |ids'| ==> order'[i] in dict' && dict'[order'[i]] == ids'[i]
    ensures forall x :: x in dict' ==> (nodes + [Node(k, v)])[dict'[x]].value == store'[x]
    ensures dict'.Keys == store'.Keys
  {
    var order', ids' := [k] + order[..keep], [|nodes|] + ids[..keep];
    forall i | 0 <= i < |ids'|
      ensures order'[i] in dict' && dict'[order'[i]] == ids'[i]
    {
      if i > 0 {
        assert order'[i] == order[i - 1] && ids'[i] == ids[i - 1];
      }
    }
  }

  /** Entering `k` and evicting `victim` on both sides keeps the
      dictionary and the store over the same keys, and changes no other
      entry. */
  lemma EvictMaps<K, V>(dict: map<K, nat>, store: map<K, V>, k: K, n: nat, v: V, victim: K)
    requires dict.Keys == store.Keys && k != victim && k !in dict
    ensures var dict', store' := dict[k := n] - {victim}, (store - {victim})[k := v];
            && k in dict' && dict'[k] == n && k in store' && store'[k] == v
            && (forall x :: x in dict' <==> x in store')
            && (forall x :: x in dict' && x != k ==> x in dict && dict'[x] == dict[x] && store'[x] == store[x])
            && (forall x :: x in dict && x != victim ==> x in dict' && dict'[x] == dict[x])
  {
    var dict', store' := dict[k := n] - {victim}, (store - {victim})[k := v];
    forall x
      ensures x in dict' <==> x in store'
    {
      assert x in dict <==> x in store;
    }
  }

  /** After a fresh `put` with room, the linked cache stands for the
      abstract one: the shapes below are what both sides compute. */
  lemma ReprAfterFreshRoom<K, V>(
    c: Linked<K, V>, a: LruCache.Cache<K, V>, ids: seq<nat>, k: K, v: V,
    c': Linked<K, V>, a': LruCache.Cache<K, V>)
    requires Repr(c, a, ids) && k !in a.store
    requires var n: nat := |c.nodes|; Wf(c') && LruCache.Valid(a') && Chain(c', [n] + ids)
    requires c'.capacity == c.capacity && a'.capacity == a.capacity
    requires c'.dict == c.dict[k := |c.nodes|] && c'.nodes == c.nodes + [Node(k, v)]
    requires a'.store == a.store[k := v] && a'.order == [k] + a.order
    ensures var n: nat := |c.nodes|; Repr(c', a', [n] + ids)
  {
    var m := |ids|;
    assert a.order[..m] == a.order;
    assert ids[..m] == ids;
    assert forall i :: 0 <= i < m ==> a.order[i] != k;
    FreshPutMatch(c.dict, c.nodes, a.order, a.store, ids, k, v, m, c'.dict, a'.store);
  }

  /** After a fresh `put` into a full cache, the linked cache stands for
      the abstract one: both dropped the least recently used key. */
  lemma ReprAfterFreshFull<K, V>(
    c: Linked<K, V>, a: LruCache.Cache<K, V>, ids: seq<nat>, k: K, v: V,
    c': Linked<K, V>, a': LruCache.Cache<K, V>)
    requires Repr(c, a, ids) && k !in a.store && |a.order| == a.capacity
    requires var n: nat := |c.nodes|; Wf(c') && LruCache.Valid(a') && Chain(c', [n] + ids[..|ids| - 1])
    requires c'.capacity == c.capacity && a'.capacity == a.capacity
    requires c'.dict == c.dict[k := |c.nodes|] - {LruCache.Last(a.order)}
    requires c'.nodes == c.nodes + [Node(k, v)]
    requires a'.store == (a.store - {LruCache.Last(a.order)})[k := v]
    requires a'.order == [k] + a.order[..|a.order| - 1]
    ensures var n: nat := |c.nodes|; Repr(c', a', [n] + ids[..|ids| - 1])
  {
    var m := |ids|;
    var victim := LruCache.Last(a.order);
    assert forall i :: 0 <= i < m - 1 ==> a.order[i] != victim && a.order[i] != k;
    EvictMaps(c.dict, a.store, k, |c.nodes|, v, victim);
    FreshPutMatch(c.dict, c.nodes, a.order, a.store, ids, k, v, m - 1, c'.dict, a'.store);
  }

  /** `put` of a key the cache does not hold: the implementation as written
      agrees with the abstract cache, with or without eviction. */
  lemma PutFreshRefines<K, V>(c: Linked<K, V>, a: LruCache.Cache<K, V>, ids: seq<nat>, k: K, v: V)
    returns (ids': seq<nat>)
    requires Repr(c, a, ids) && k !in a.store
    ensures Put(c, k, v).Ok? && Repr(Put(c, k, v).value, LruCache.Put(a, k, v), ids')
    ensures PutFixed(c, k, v) == Put(c, k, v)
  {
    ReprKeys(c, a, ids);
    var c2 := AdmitPush(c, ids, k, v);
    var n: nat := |c.nodes|;
    if |a.order| < a.capacity {
      PutFreshRoomChain(c, ids, k, v);
      LruProperties.PutFreshRoom(a, k, v);
      ReprAfterFreshRoom(c, a, ids, k, v, Put(c, k, v).value, LruCache.Put(a, k, v));
      ids' := [n] + ids;
    } else {
      PutFreshFullChain(c, ids, k, v);
      LruProperties.PutFreshFull(a, k, v);
      ReprAfterFreshFull(c, a, ids, k, v, Put(c, k, v).value, LruCache.Put(a, k, v));
      ids' := [n] + ids[..|ids| - 1];
    }
  }

  /** The dictionary still matches the list after position `i` moves to
      the front. */
  lemma PromoteMatch<K>(dict: map<K, nat>, order: seq<K>, ids: seq<nat>, i: nat)
    requires |ids| == |order| && i < |order|
    requires forall j :: 0 <= j < |ids| ==> order[j] in dict && dict[order[j]] == ids[j]
    ensures var order', ids' := [order[i]] + Cut(order, i), [ids[i]] + Cut(ids, i);
            && |ids'| == |order'|
            && forall j :: 0 <= j < |ids'| ==> order'[j] in dict && dict[order'[j]] == ids'[j]
  {
    var order', ids' := [order[i]] + Cut(order, i), [ids[i]] + Cut(ids, i);
    forall j | 0 <= j < |ids'|
      ensures order'[j] in dict && dict[order'[j]] == ids'[j]
    {
      if 0 < j <= i {
        assert order'[j] == order[j - 1] && ids'[j] == ids[j - 1];
      } else if j > i {
        assert order'[j] == order[j] && ids'[j] == ids[j];
      }
    }
  }

  /** Where a cached key sits in the recency list. */
  lemma KeyIndex<K, V>(a: LruCache.Cache<K, V>, k: K) returns (i: nat)
    requires LruCache.Valid(a) && k in a.store
    ensures i < |a.order| && a.order[i] == k
    ensures Promote(a.order, k) == [k] + Cut(a.order, i)
  {
    ElemsMember(a.order, k);
    i :| 0 <= i < |a.order| && a.order[i] == k;
    RemoveAt(a.order, i);
  }

  /** After moving the node at position `i` of the list to the front, the
      linked cache stands for the abstract cache with that key promoted. */
  lemma ReprAfterMove<K, V>(
    c: Linked<K, V>, a: LruCache.Cache<K, V>, ids: seq<nat>, k: K, i: nat, c': Linked<K, V>)
    requires Repr(c, a, ids) && i < |ids| && a.order[i] == k
    requires Promote(a.order, k) == [k] + Cut(a.order, i)
    requires Wf(c') && Chain(c', [ids[i]] + Cut(ids, i))
    requires c'.nodes == c.nodes && c'.dict == c.dict && c'.capacity == c.capacity
    ensures Repr(c', a.(order := Promote(a.order, k)), [ids[i]] + Cut(ids, i))
  {
    var a', ids' := a.(order := Promote(a.order, k)), [ids[i]] + Cut(ids, i);
    ElemsMember(a.order, k);
    assert LruCache.Valid(a');
    PromoteMatch(c.dict, a.order, ids, i);
    assert forall j :: 0 <= j < |ids'| ==> a'.order[j] in c'.dict && c'.dict[a'.order[j]] == ids'[j];
  }

  /** The corrected move to the front of a cached key's node stands for
      making the key the most recent one. */
  lemma MoveToFrontRefines<K, V>(c: Linked<K, V>, a: LruCache.Cache<K, V>, ids: seq<nat>, k: K)
    returns (ids': seq<nat>)
    requires Repr(c, a, ids) && k in a.store
    ensures MoveToFront(c, c.dict[k]).Ok?
    ensures Repr(MoveToFront(c, c.dict[k]).value, a.(order := Promote(a.order, k)), ids')
  {
    ReprKeys(c, a, ids);
    var i := KeyIndex(a, k);
    MoveToFrontChain(c, ids, i);
    ids' := [ids[i]] + Cut(ids, i);
    ReprAfterMove(c, a, ids, k, i, MoveToFront(c, ids[i]).value);
  }

  /** The corrected `get`: the same answer as the abstract cache, and the
      same recency list afterwards. */
  lemma GetFixedRefines<K, V>(c: Linked<K, V>, a: LruCache.Cache<K, V>, ids: seq<nat>, k: K)
    returns (ids': seq<nat>)
    requires Repr(c, a, ids)
    ensures GetFixed(c, k).Ok?
    ensures GetFixed(c, k).value.0 == LruCache.Get(a, k).0
    ensures Repr(GetFixed(c, k).value.1, LruCache.Get(a, k).1, ids')
  {
    if k in a.store {
      ids' := MoveToFrontRefines(c, a, ids, k);
    } else {
      ids' := ids;
    }
  }

  /** `get` as written of a key the cache does not hold: None, and nothing
      changes on either side. */
  lemma GetMissRefines<K, V>(c: Linked<K, V>, a: LruCache.Cache<K, V>, ids: seq<nat>, k: K)
    requires Repr(c, a, ids) && k !in a.store
    ensures Get(c, k) == Ok((None, c)) && LruCache.Get(a, k) == (None, a)
  {
  }

  /** The corrected `put` agrees with the abstract cache on every key: a
      new key as in `PutFreshRefines`; a present key moves to the front,
      keeps its value, and nothing is evicted. */
  lemma PutFixedRefines<K, V>(c: Linked<K, V>, a: LruCache.Cache<K, V>, ids: seq<nat>, k: K, v: V)
    returns (ids': seq<nat>)
    requires Repr(c, a, ids)
    ensures PutFixed(c, k, v).Ok? && Repr(PutFixed(c, k, v).value, LruCache.Put(a, k, v), ids')
  {
    if k in a.store {
      ids' := MoveToFrontRefines(c, a, ids, k);
      var moved := MoveToFront(c, c.dict[k]).value;
      ReprKeys(c, a, ids);
      assert PutFixed(c, k, v) == EvictIfFull(moved);
      LruProperties.PutPresent(a, k, v);
      assert LruCache.Put(a, k, v) == a.(order := Promote(a.order, k));
    } else {
      ids' := PutFreshRefines(c, a, ids, k, v);
    }
  }

  /** The dictionary and the node payloads still match after position `i`
      and its key leave both sides. */
  lemma DeleteMatch<K, V>(
    dict: map<K, nat>, nodes: seq<Node<K, V>>, order: seq<K>, store: map<K, V>, ids: seq<nat>, i: nat)
    requires |ids| == |order| && i < |order| && Distinct(order)
    requires forall j :: 0 <= j < |ids| ==> order[j] in dict && dict[order[j]] == ids[j]
    requires dict.Keys == store.Keys
    requires forall x :: x in dict ==> dict[x] < |nodes| && nodes[dict[x]].value == store[x]
    ensures var dict', store' := dict - {order[i]}, store - {order[i]};
            && dict'.Keys == store'.Keys
            && (forall j :: 0 <= j < |ids| - 1 ==>
                  Cut(order, i)[j] in dict' && dict'[Cut(order, i)[j]] == Cut(ids, i)[j])
            && (forall x :: x in dict' ==> nodes[dict'[x]].value == store'[x])
  {
    var k := order[i];
    CutDistinct(order, i);
    forall j | 0 <= j < |ids| - 1
      ensures Cut(order, i)[j] in dict && dict[Cut(order, i)[j]] == Cut(ids, i)[j]
    {
      if j >= i {
        assert Cut(order, i)[j] == order[j + 1];
      }
    }
    forall x
      ensures x in dict - {k} <==> x in store - {k}
    {
      assert x in dict <==> x in store;
    }
  }

  /** `delete` (which needs no correction) agrees with the abstract cache:
      the key leaves, the other keys keep their relative order. */
  lemma DeleteRefines<K, V>(c: Linked<K, V>, a: LruCache.Cache<K, V>, ids: seq<nat>, k: K)
    returns (ids': seq<nat>)
    requires Repr(c, a, ids)
    ensures LinkedLru.Delete(c, k).Ok? && Repr(LinkedLru.Delete(c, k).value, LruCache.Delete(a, k), ids')
  {
    if k in a.store {
      ReprKeys(c, a, ids);
      var i := KeyIndex(a, k);
      UnlinkChain(c, ids, i);
      var c1 := Unlink(c, ids[i]).value;
      ChainSameLinks(c1, Forget(c1, k), Cut(ids, i));
      assert LinkedLru.Delete(c, k) == Ok(Forget(c1, k));
      DeleteMatch(c.dict, c.nodes, a.order, a.store, ids, i);
      ids' := Cut(ids, i);
    } else {
      ids' := ids;
    }
  }

  /** `reset` on both sides: empty, with the capacity kept. */
  lemma ResetRefines<K, V>(c: Linked<K, V>, a: LruCache.Cache<K, V>, ids: seq<nat>)
    requires Repr(c, a, ids)
    ensures Repr(LinkedLru.Reset(c), LruCache.Reset(a), [])
  {
  }

  /** Walking the list from the head of a non-empty linked cache meets the
      abstract recency list, most recent first. */
  lemma WalkIsOrder<K, V>(c: Linked<K, V>, a: LruCache.Cache<K, V>, ids: seq<nat>, fuel: nat)
    requires Repr(c, a, ids) && 0 < |a.order| && |a.order| <= fuel
    ensures Walk(c, c.head, fuel) == a.order
  {
    ReprKeys(c, a, ids);
    WalkChain(c, ids, fuel);
  }

  /** What a reader of a linked cache that stands for `a` sees: its size
      is the number of keys, and a non-empty list walks from the head as
      the recency list and stops after the last key. */
  lemma ReprReads<K, V>(c: Linked<K, V>, a: LruCache.Cache<K, V>, ids: seq<nat>)
    requires Repr(c, a, ids)
    ensures Size(c) == |a.order|
    ensures |a.order| > 0 ==> Walk(c, c.head, c.capacity + 1) == a.order
  {
    ReprKeys(c, a, ids);
    if |a.order| > 0 {
      WalkIsOrder(c, a, ids, c.capacity + 1);
    }
  }
}

=== FILE: traces.dfy ===
/**
 * Sequences of public calls on both layers. `Replay` runs them on the
 * abstract cache; `Run` runs them on the linked cache, either as written
 * or with the corrected move to the front. Every call answers: `get` its
 * result, the others None.
 */
module Traces {
  import opened Wrappers
  import opened Recency
  import opened LinkedLru
  import opened ListChain
  import opened Refinement
  import LruCache
  import LruProperties

  datatype Op<K, V> = PutOp(key: K, value: V) | GetOp(key: K) | DeleteOp(key: K) | ResetOp

  /** One call on the abstract cache. */
  function Apply<K(==), V>(a: LruCache.Cache<K, V>, op: Op<K, V>): (r: (LruCache.Cache<K, V>, Option<V>))
    requires LruCache.Valid(a)
    ensures LruCache.Valid(r.0) && r.0.capacity == a.capacity
    ensures !op.GetOp? ==> r.1 == None
  {
    match op
    case PutOp(k, v) => (LruCache.Put(a, k, v), None)
    case GetOp(k) => (LruCache.Get(a, k).1, LruCache.Get(a, k).0)
    case DeleteOp(k) => (LruCache.Delete(a, k), None)
    case ResetOp =>
      assert Elems<K>([]) == {};
      (LruCache.Reset(a), None)
  }

  /** A sequence of calls on the abstract cache, with their answers. */
  function Replay<K(==), V>(a: LruCache.Cache<K, V>, ops: seq<Op<K, V>>): (r: (LruCache.Cache<K, V>, seq<Option<V>>))
    requires LruCache.Valid(a)
    ensures LruCache.Valid(r.0) && r.0.capacity == a.capacity && |r.1| == |ops|
    decreases |ops|
  {
    if |ops| == 0 then (a, [])
    else
      var step := Apply(a, ops[0]);
      var rest := Replay(step.0, ops[1..]);
      (rest.0, [step.1] + rest.1)
  }

  /** One call on the linked cache; `fixed` selects the corrected move to
      the front. A raised exception ends the run. */
  function Exec<K, V>(c: Linked<K, V>, op: Op<K, V>, fixed: bool): (r: Result<(Linked<K, V>, Option<V>), PyError>)
    requires Wf(c)
    ensures r.Ok? ==> Wf(r.value.0) && r.value.0.capacity == c.capacity
    ensures r.Ok? && !op.GetOp? ==> r.value.1 == None
  {
    match op
    case PutOp(k, v) =>
      var c' :- if fixed then PutFixed(c, k, v) else Put(c, k, v);
      Ok((c', None))
    case GetOp(k) =>
      var got :- if fixed then GetFixed(c, k) else Get(c, k);
      Ok((got.1, got.0))
    case DeleteOp(k) =>
      var c' :- LinkedLru.Delete(c, k);
      Ok((c', None))
    case ResetOp => Ok((LinkedLru.Reset(c), None))
  }

  /** The correction touches only the calls that move a cached node to
      the front: on any other call the two versions do the same. */
  lemma ExecSameOffPromotion<K, V>(c: Linked<K, V>, op: Op<K, V>)
    requires Wf(c)
    requires op.PutOp? || op.GetOp? ==> op.key !in c.dict
    ensures Exec(c, op, true) == Exec(c, op, false)
  {
  }

  /** A sequence of calls on the linked cache, with their answers. */
  function Run<K, V>(c: Linked<K, V>, ops: seq<Op<K, V>>, fixed: bool): (r: Result<(Linked<K, V>, seq<Option<V>>), PyError>)
    requires Wf(c)
    ensures r.Ok? ==> Wf(r.value.0) && r.value.0.capacity == c.capacity && |r.value.1| == |ops|
    decreases |ops|
  {
    if |ops| == 0 then Ok((c, []))
    else
      var step :- Exec(c, ops[0], fixed);
      var rest :- Run(step.0, ops[1..], fixed);
      Ok((rest.0, [step.1] + rest.1))
  }

  /** The calls the code as written makes with its list left intact: puts
      of keys not in the cache, gets that miss, deletes and resets. A get
      that hits or a put of a cached key relinks a node without unlinking
      it, which can break the list. */
  predicate ListSafeOp<K(==), V>(a: LruCache.Cache<K, V>, op: Op<K, V>) {
    match op
    case PutOp(k, _) => k !in a.store
    case GetOp(k) => k !in a.store
    case _ => true
  }

  /** Every call of the sequence is list-safe in the state it meets. */
  predicate ListSafe<K(==), V>(a: LruCache.Cache<K, V>, ops: seq<Op<K, V>>)
    requires LruCache.Valid(a)
    decreases |ops|
  {
    |ops| == 0 || (ListSafeOp(a, ops[0]) && ListSafe(Apply(a, ops[0]).0, ops[1..]))
  }

  /** One call: the linked cache answers as the abstract one and still
      stands for it — always with the correction, and on list-safe calls as
      written. */
  lemma StepRefines<K, V>(c: Linked<K, V>, a: LruCache.Cache<K, V>, ids: seq<nat>, op: Op<K, V>, fixed: bool)
    returns (ids': seq<nat>)
    requires Repr(c, a, ids) && (fixed || ListSafeOp(a, op))
    ensures Exec(c, op, fixed).Ok?
    ensures Exec(c, op, fixed).value.1 == Apply(a, op).1
    ensures Repr(Exec(c, op, fixed).value.0, Apply(a, op).0, ids')
  {
    match op
    case PutOp(k, v) =>
      ids' := PutStepRefines(c, a, ids, k, v, fixed);
    case GetOp(k) =>
      ids' := GetStepRefines(c, a, ids, k, fixed);
    case DeleteOp(k) =>
      ids' := DeleteRefines(c, a, ids, k);
    case ResetOp =>
      ResetRefines(c, a, ids);
      ids' := [];
  }

  /** The put case of `StepRefines`. */
  lemma PutStepRefines<K, V>(c: Linked<K, V>, a: LruCache.Cache<K, V>, ids: seq<nat>, k: K, v: V, fixed: bool)
    returns (ids': seq<nat>)
    requires Repr(c, a, ids) && (fixed || k !in a.store)
    ensures Exec(c, PutOp(k, v), fixed).Ok?
    ensures Repr(Exec(c, PutOp(k, v), fixed).value.0, LruCache.Put(a, k, v), ids')
  {
    if fixed {
      ids' := PutFixedRefines(c, a, ids, k, v);
    } else {
      ids' := PutFreshRefines(c, a, ids, k, v);
    }
  }

  /** The get case of `StepRefines`. */
  lemma GetStepRefines<K, V>(c: Linked<K, V>, a: LruCache.Cache<K, V>, ids: seq<nat>, k: K, fixed: bool)
    returns (ids': seq<nat>)
    requires Repr(c, a, ids) && (fixed || k !in a.store)
    ensures Exec(c, GetOp(k), fixed).Ok?
    ensures Exec(c, GetOp(k), fixed).value.1 == LruCache.Get(a, k).0
    ensures Repr(Exec(c, GetOp(k), fixed).value.0, LruCache.Get(a, k).1, ids')
  {
    if fixed {
      ids' := GetFixedRefines(c, a, ids, k);
    } else {
      GetMissRefines(c, a, ids, k);
      ids' := ids;
    }
  }

  /** A whole sequence of calls: the linked cache gives the abstract
      cache's answers and ends standing for its final state — for every
      sequence with the correction, and for list-safe sequences as written. */
  lemma {:induction false} RunRefines<K, V>(c: Linked<K, V>, a: LruCache.Cache<K, V>, ids: seq<nat>, ops: seq<Op<K, V>>, fixed: bool)
    returns (ids': seq<nat>)
    requires Repr(c, a, ids) && (fixed || ListSafe(a, ops))
    ensures Run(c, ops, fixed).Ok?
    ensures Run(c, ops, fixed).value.1 == Replay(a, ops).1
    ensures Repr(Run(c, ops, fixed).value.0, Replay(a, ops).0, ids')
    decreases |ops|
  {
    if |ops| == 0 {
      ids' := ids;
    } else {
      var mid := StepRefines(c, a, ids, ops[0], fixed);
      var step := Exec(c, ops[0], fixed).value;
      ids' := RunRefines(step.0, Apply(a, ops[0]).0, mid, ops[1..], fixed);
    }
  }

  /** From a newly constructed cache, the corrected code runs every
      sequence of calls without raising and answers each call as the
      abstract cache does. While the cache holds a key, its list walks
      from the head as the abstract recency list and stops after the last
      key. An empty cache may still have its head on a deleted node, since
      `_unlink` leaves a lone head in place (lines 130-134). */
  lemma FixedRunsFromNew<K, V>(capacity: int, ops: seq<Op<K, V>>)
    requires capacity >= 1
    ensures LinkedLru.New<K, V>(capacity).Ok? && LruCache.New<K, V>(capacity).Ok?
    ensures var r := Run(LinkedLru.New<K, V>(capacity).value, ops, true);
            var a := Replay(LruCache.New<K, V>(capacity).value, ops);
            && r.Ok? && r.value.1 == a.1 && Size(r.value.0) == |a.0.order|
            && (|a.0.order| > 0 ==> Walk(r.value.0, r.value.0.head, capacity + 1) == a.0.order)
  {
    RunFromNew(capacity, ops, true);
  }

  /** The same from a new cache for the code as written, on list-safe
      sequences of calls. */
  lemma ListSafeRunsFromNew<K, V>(capacity: int, ops: seq<Op<K, V>>)
    requires capacity >= 1 && ListSafe(LruCache.New<K, V>(capacity).value, ops)
    ensures LinkedLru.New<K, V>(capacity).Ok? && LruCache.New<K, V>(capacity).Ok?
    ensures var r := Run(LinkedLru.New<K, V>(capacity).value, ops, false);
            var a := Replay(LruCache.New<K, V>(capacity).value, ops);
            && r.Ok? && r.value.1 == a.1 && Size(r.value.0) == |a.0.order|
            && (|a.0.order| > 0 ==> Walk(r.value.0, r.value.0.head, capacity + 1) == a.0.order)
  {
    RunFromNew(capacity, ops, false);
  }

  /** Both of the above, with the correction switched by `fixed`. */
  lemma RunFromNew<K, V>(capacity: int, ops: seq<Op<K, V>>, fixed: bool)
    requires capacity >= 1 && (fixed || ListSafe(LruCache.New<K, V>(capacity).value, ops))
    ensures LinkedLru.New<K, V>(capacity).Ok? && LruCache.New<K, V>(capacity).Ok?
    ensures var r := Run(LinkedLru.New<K, V>(capacity).value, ops, fixed);
            var a := Replay(LruCache.New<K, V>(capacity).value, ops);
            && r.Ok? && r.value.1 == a.1 && Size(r.value.0) == |a.0.order|
            && (|a.0.order| > 0 ==> Walk(r.value.0, r.value.0.head, capacity + 1) == a.0.order)
  {
    NewRefines<K, V>(capacity);
    var c, a := LinkedLru.New<K, V>(capacity).value, LruCache.New<K, V>(capacity).value;
    var ids := RunRefines(c, a, [], ops, fixed);
    ReprReads(Run(c, ops, fixed).value.0, Replay(a, ops).0, ids);
  }

  /** `put(ks[i], vs[i])` for each `i` in turn. */
  function Puts<K, V>(ks: seq<K>, vs: seq<V>): (r: seq<Op<K, V>>)
    requires |ks| == |vs|
    ensures |r| == |ks|
    ensures forall i :: 0 <= i < |r| ==> r[i] == PutOp(ks[i], vs[i])
  {
    seq(|ks|, i requires 0 <= i < |ks| => PutOp(ks[i], vs[i]))
  }

  /** `get(ks[i])` for each `i` in turn. */
  function Gets<K, V>(ks: seq<K>): (r: seq<Op<K, V>>)
    ensures |r| == |ks|
    ensures forall i :: 0 <= i < |r| ==> r[i] == GetOp(ks[i])
  {
    seq(|ks|, i requires 0 <= i < |ks| => GetOp(ks[i]))
  }

  /** Replaying puts is putting them all. */
  lemma {:induction false} ReplayPuts<K, V>(a: LruCache.Cache<K, V>, ks: seq<K>, vs: seq<V>)
    requires LruCache.Valid(a) && |ks| == |vs|
    ensures Replay(a, Puts(ks, vs)).0 == LruCache.PutAll(a, ks, vs)
    decreases |ks|
  {
    if |ks| > 0 {
      assert Puts(ks, vs)[1..] == Puts(ks[1..], vs[1..]);
      ReplayPuts(LruCache.Put(a, ks[0], vs[0]), ks[1..], vs[1..]);
    }
  }

  /** Replaying gets answers as getting them all. */
  lemma {:induction false} ReplayGets<K, V>(a: LruCache.Cache<K, V>, ks: seq<K>)
    requires LruCache.Valid(a)
    ensures Replay(a, Gets<K, V>(ks)).1 == LruCache.GetAll(a, ks)
    decreases |ks|
  {
    if |ks| > 0 {
      assert Gets<K, V>(ks)[1..] == Gets(ks[1..]);
      ReplayGets(LruCache.Get(a, ks[0]).1, ks[1..]);
    }
  }

  /** Puts of distinct keys the cache does not hold are list-safe calls:
      an evicted key never comes back. */
  lemma {:induction false} FreshPutsListSafe<K, V>(a: LruCache.Cache<K, V>, ks: seq<K>, vs: seq<V>)
    requires LruCache.Valid(a) && |ks| == |vs| && Distinct(ks)
    requires forall i :: 0 <= i < |ks| ==> ks[i] !in a.store
    ensures ListSafe(a, Puts(ks, vs))
    decreases |ks|
  {
    if |ks| > 0 {
      var a1 := LruCache.Put(a, ks[0], vs[0]);
      LruProperties.PutGainsOnlyItsKey(a, ks[0], vs[0]);
      DistinctSlice(ks, 1, |ks|);
      forall i | 0 <= i < |ks| - 1
        ensures ks[1..][i] !in a1.store
      {
        assert ks[i + 1] != ks[0];
      }
      FreshPutsListSafe(a1, ks[1..], vs[1..]);
      assert Puts(ks, vs)[1..] == Puts(ks[1..], vs[1..]);
    }
  }

  /** What answering a get needs: the dictionary holds the abstract
      cache's keys, each node its key's value, and a non-empty dictionary
      has a head. The list itself may be broken. */
  ghost predicate SameEntries<K, V>(c: Linked<K, V>, a: LruCache.Cache<K, V>) {
    && Wf(c) && LruCache.Valid(a)
    && c.dict.Keys == a.store.Keys
    && (forall x :: x in c.dict ==> c.nodes[c.dict[x]].value == a.store[x])
    && (|c.dict| > 0 ==> c.head.Some?)
  }

  /** Gets as written answer as the abstract cache does, whatever they do
      to the list: a hit leaves the dictionary and the nodes alone. */
  lemma {:induction false} GetsAsWritten<K, V>(c: Linked<K, V>, a: LruCache.Cache<K, V>, ks: seq<K>)
    requires SameEntries(c, a)
    ensures Run(c, Gets(ks), false).Ok?
    ensures Run(c, Gets(ks), false).value.1 == LruCache.GetAll(a, ks)
    decreases |ks|
  {
    if |ks| > 0 {
      var k := ks[0];
      if k in c.dict {
        assert c.dict.Keys == a.store.Keys;
        assert |c.dict| > 0;
      }
      var next := Get(c, k).value.1;
      assert Gets<K, V>(ks)[1..] == Gets(ks[1..]);
      GetsAsWritten(next, LruCache.Get(a, k).1, ks[1..]);
    }
  }

  /** The linked cache as written, filled with distinct keys from empty,
      stands for the abstract cache filled the same way. */
  lemma FillAsWritten<K, V>(capacity: int, ks: seq<K>, vs: seq<V>) returns (ids: seq<nat>)
    requires capacity >= 1 && |ks| == |vs| && Distinct(ks)
    ensures LinkedLru.New<K, V>(capacity).Ok? && LruCache.New<K, V>(capacity).Ok?
    ensures Run(LinkedLru.New<K, V>(capacity).value, Puts(ks, vs), false).Ok?
    ensures Repr(Run(LinkedLru.New<K, V>(capacity).value, Puts(ks, vs), false).value.0,
                 LruCache.PutAll(LruCache.New<K, V>(capacity).value, ks, vs), ids)
  {
    var c, a := LinkedLru.New<K, V>(capacity).value, LruCache.New<K, V>(capacity).value;
    NewRefines<K, V>(capacity);
    FreshPutsListSafe(a, ks, vs);
    ids := RunRefines(c, a, [], Puts(ks, vs), false);
    ReplayPuts(a, ks, vs);
  }

  /** lru_cache_tests.py, test_cache_does_not_go_over_capacity: after each
      put of distinct keys, the code as written holds at most `capacity`
      entries. */
  lemma PutsStayWithinCapacity<K, V>(capacity: int, ks: seq<K>, vs: seq<V>, j: nat)
    requires capacity >= 1 && |ks| == |vs| && Distinct(ks) && j <= |ks|
    ensures LinkedLru.New<K, V>(capacity).Ok?
    ensures var r := Run(LinkedLru.New<K, V>(capacity).value, Puts(ks[..j], vs[..j]), false);
            r.Ok? && Size(r.value.0) <= capacity
  {
    DistinctSlice(ks, 0, j);
    var ids := FillAsWritten<K, V>(capacity, ks[..j], vs[..j]);
    var r := Run(LinkedLru.New<K, V>(capacity).value, Puts(ks[..j], vs[..j]), false);
    ReprKeys(r.value.0, LruCache.PutAll(LruCache.New<K, V>(capacity).value, ks[..j], vs[..j]), ids);
  }

  /** One call of the code as written that does not raise keeps a cache
      within capacity within it, whatever state its list is in. */
  lemma ExecStaysWithinCapacity<K, V>(c: Linked<K, V>, op: Op<K, V>)
    requires Wf(c) && Size(c) <= c.capacity && Exec(c, op, false).Ok?
    ensures Size(Exec(c, op, false).value.0) <= c.capacity
  {
    match op
    case PutOp(k, v) =>
      PutSize(c, k, v);
    case GetOp(k) =>
    case DeleteOp(k) =>
      var d := Exec(c, op, false).value.0;
      SubsetCard(d.dict.Keys, c.dict.Keys);
    case ResetOp =>
  }

  /** Any sequence of calls of the code as written that does not raise —
      re-puts, hits and deletes that break the list included — keeps a
      cache within capacity within it. */
  lemma {:induction false} RunStaysWithinCapacity<K, V>(c: Linked<K, V>, ops: seq<Op<K, V>>)
    requires Wf(c) && Size(c) <= c.capacity && Run(c, ops, false).Ok?
    ensures Size(Run(c, ops, false).value.0) <= c.capacity
    decreases |ops|
  {
    if |ops| > 0 {
      var step := Exec(c, ops[0], false).value;
      ExecStaysWithinCapacity(c, ops[0]);
      RunStaysWithinCapacity(step.0, ops[1..]);
    }
  }

  /** lru_cache_tests.py, test_cache_does_not_go_over_capacity, for every
      sequence of calls: a run from a new cache that does not raise ends
      with at most `capacity` entries. */
  lemma RunsFromNewStayWithinCapacity<K, V>(capacity: int, ops: seq<Op<K, V>>)
    requires capacity >= 1 && Run(LinkedLru.New<K, V>(capacity).value, ops, false).Ok?
    ensures Size(Run(LinkedLru.New<K, V>(capacity).value, ops, false).value.0) <= capacity
  {
    RunStaysWithinCapacity(LinkedLru.New<K, V>(capacity).value, ops);
  }

  /** lru_cache_tests.py, test_it_gets_the_values: after `capacity` puts of
      distinct keys, the code as written answers a get of each key, in
      turn, with the value put for it. */
  lemma FillThenGetAsWritten<K, V>(capacity: int, ks: seq<K>, vs: seq<V>)
    requires capacity >= 1 && |ks| == |vs| == capacity && Distinct(ks)
    ensures LinkedLru.New<K, V>(capacity).Ok?
    ensures var filled := Run(LinkedLru.New<K, V>(capacity).value, Puts(ks, vs), false);
            && filled.Ok?
            && var got := Run(filled.value.0, Gets(ks), false);
            && got.Ok?
            && forall i :: 0 <= i < |ks| ==> got.value.1[i] == Some(vs[i])
  {
    var ids := FillAsWritten<K, V>(capacity, ks, vs);
    var filled := Run(LinkedLru.New<K, V>(capacity).value, Puts(ks, vs), false).value.0;
    var full := LruCache.PutAll(LruCache.New<K, V>(capacity).value, ks, vs);
    ReprKeys(filled, full, ids);
    GetsAsWritten(filled, full, ks);
    LruProperties.FillThenGet<K, V>(capacity, ks, vs);
  }

  /** lru_cache_tests.py, test_it_pops_least_recently_used_cache: after
      `capacity` puts of distinct keys and one put of a new key, the code
      as written misses on the first key put and still holds the rest. */
  lemma FillThenEvictAsWritten<K, V>(capacity: int, ks: seq<K>, vs: seq<V>, k: K, v: V)
    requires capacity >= 1 && |ks| == |vs| == capacity && Distinct(ks) && k !in Elems(ks)
    ensures LinkedLru.New<K, V>(capacity).Ok?
    ensures var filled := Run(LinkedLru.New<K, V>(capacity).value, Puts(ks, vs), false);
            && filled.Ok?
            && var more := Run(filled.value.0, [PutOp(k, v), GetOp(ks[0])], false);
            && more.Ok? && more.value.1 == [None, None]
            && ks[0] !in more.value.0.dict
            && (forall i :: 1 <= i < |ks| ==> ks[i] in more.value.0.dict)
            && k in more.value.0.dict
  {
    var ids := FillAsWritten<K, V>(capacity, ks, vs);
    var filled := Run(LinkedLru.New<K, V>(capacity).value, Puts(ks, vs), false).value.0;
    var full := LruCache.PutAll(LruCache.New<K, V>(capacity).value, ks, vs);
    LruProperties.PutAllFreshOrder(LruCache.New<K, V>(capacity).value, ks, vs);
    assert full.order == Reverse(ks);
    ReverseElems(ks);
    LruProperties.FillThenEvictFirst<K, V>(capacity, ks, vs, k, v);
    PutThenMiss(filled, full, ids, k, v, ks[0]);
  }

  /** A put of a new key and then a get of a key that put evicted, on the
      code as written: both answer None and the dictionary ends with the
      abstract cache's keys. */
  lemma PutThenMiss<K, V>(c: Linked<K, V>, a: LruCache.Cache<K, V>, ids: seq<nat>, k: K, v: V, gone: K)
    requires Repr(c, a, ids) && k !in a.store && gone !in LruCache.Put(a, k, v).store
    ensures var r := Run(c, [PutOp(k, v), GetOp(gone)], false);
            && r.Ok? && r.value.1 == [None, None]
            && r.value.0.dict.Keys == LruCache.Put(a, k, v).store.Keys
  {
    ReplayPutThenMiss(a, k, v, gone);
    var ids' := RunRefines(c, a, ids, [PutOp(k, v), GetOp(gone)], false);
  }

  /** The abstract side of `PutThenMiss`: both calls are list-safe, both
      answer None, and the cache ends as the put left it. */
  lemma ReplayPutThenMiss<K, V>(a: LruCache.Cache<K, V>, k: K, v: V, gone: K)
    requires LruCache.Valid(a) && k !in a.store && gone !in LruCache.Put(a, k, v).store
    ensures ListSafe(a, [PutOp(k, v), GetOp(gone)])
    ensures Replay(a, [PutOp(k, v), GetOp(gone)]) == (LruCache.Put(a, k, v), [None, None])
  {
    var ops := [PutOp(k, v), GetOp(gone)];
    var a1 := LruCache.Put(a, k, v);
    assert ops[1..] == [GetOp(gone)];
    var last: seq<Op<K, V>> := [GetOp(gone)];
    assert last[1..] == [];
    assert Apply(a1, last[0]) == (a1, None);
    assert Replay(a1, last[1..]) == (a1, []);
    var none: seq<Option<V>> := [None];
    assert none + [] == none;
    assert Replay(a1, last).1 == none;
    assert Replay(a1, last) == (a1, none);
    assert Apply(a, ops[0]) == (a1, None);
    assert ops[1..] == last;
    assert Replay(a, ops) == (a1, [None] + none);
    assert [None] + none == [None, None];
    assert ListSafe(a1, last);
  }

  /** lru_cache_tests.py, test_it_deletes: in the code as written, a get of
      a held key followed by its delete never fails — the get leaves the
      key's node at the head, where `_unlink` handles it — and the key
      then misses, with one entry fewer. */
  lemma GetThenDeleteAsWritten<K, V>(c: Linked<K, V>, k: K)
    requires Wf(c) && k in c.dict && c.head.Some?
    ensures Get(c, k).Ok? && Get(c, k).value.0 == Some(c.nodes[c.dict[k]].value)
    ensures var d := LinkedLru.Delete(Get(c, k).value.1, k);
            && d.Ok? && Size(d.value) == Size(c) - 1
            && Get(d.value, k) == Ok((None, d.value))
  {
  }
}

=== FILE: wrappers.dfy ===
/** Option and Result: absence of a value, and an operation that either
    completes or raises. */
module Wrappers {

  /** A value that may be absent (Python's `None`). */
  datatype Option<+T> = None | Some(value: T)

  /** The outcome of an operation that may raise instead of returning. */
  datatype Result<+T, +E> = Ok(value: T) | Err(error: E) {

    predicate IsFailure() {
      Err?
    }

    function PropagateFailure<U>(): Result<U, E>
      requires Err?
    {
      Err(error)
    }

    function Extract(): T
      requires Ok?
    {
      value
    }
  }
}
